=== FILE: README.md ===
# aiscrapelite core, modelled in Dafny

aiscrapelite drives a browser towards a goal stated in words. It then
extracts the goal's data from the page that results. Each round:

- the **element indexer** (`get_page_summary`) numbers the page's visible
  interactive elements and writes each element's number onto it as a
  `data-idx` marker;
- the **planner** (`get_llm_commands`) sends the numbered inventory to a
  language model and post-processes the reply into a JSON plan;
- the **executor** (`execute_commands`) carries the plan out, one command
  at a time.

After the rounds, `page_to_markdown` removes the page's noise blocks and
tidies the markdown. The extractor's reply is then checked by
`validate_data`.

This project models the logic of each of these parts as pure functions,
and the loops of the source as methods proved equal to those functions:

| file | module | models |
|---|---|---|
| `text.dfy` | `Options`, `Text` | Python's and JavaScript's `strip`/`trim`, `str(n)`, `" ".join`/`split` |
| `values.dfy` | `Values` | values `json.loads` returns, truthiness, `dict.get`, `len`, `int(...)`, uncaught exceptions |
| `fence.dfy` | `Fence` | `re.search` of the fence pattern `` ```(?:json)?\s*(.*?)\s*``` `` under DOTALL, and the unwrapping around it |
| `planner.dfy` | `Planner` | the reply post-processing of `get_llm_commands` |
| `validation.dfy` | `Validation` | `validate_data` |
| `snapshot.dfy` | `Snapshot` | the indexer: clearing markers, the scan over the selector matches, labels, the summary text |
| `executor.dfy` | `Executor` | `execute_commands`, its per-command dispatch and its success flag |
| `markdown.dfy` | `Markdown` | the regex clean-up of both copies of `html_to_markdown.py` |
| `controller.dfy` | `Controller` | the loop of `scrape`, the extraction after it, and the command line |

The browser is a value of a type parameter `P`. What the browser does is
given as functions:

- `count`: how many elements carry a marker;
- `perform`: the page after a Playwright call, and whether the call raised;
- `pause`: the page after a sleep.

The language model, `json.loads`, markdownify and the extractor are also
function parameters. Every property holds for all of them.

## Model

| member | source | states |
|---|---|---|
| Fence.FenceBody | src/aiscrapelite/llm.py:88-92 | a group is found only in a text holding three backticks, and it is never longer than the text. `FenceBodyIsPreferredMatch` shows it is the group the regex returns |
| Fence.Unfence | src/aiscrapelite/llm.py:88-92 | when the fence pattern matches anywhere in the text, with prose around the fence or not, the text is replaced by the captured group; otherwise it is kept. The result is never longer than the text. `FenceBodyIsPreferredMatch` shows the group is the one the regex returns, and `UnfenceRoundTrip` is the inverse on plain texts |
| Fence.FenceBodyIsPreferredMatch | src/aiscrapelite/llm.py:88-92 | the fence search finds a match exactly when the regex has one. The group it returns is the one Python's engine prefers: the leftmost opening fence, the greedy leading `\s*`, then the lazy shortest group |
| Fence.UnfenceRoundTrip | src/aiscrapelite/llm.py:89-92 | a text without backticks and without surrounding space, wrapped in a fence tagged `json` or untagged, is unwrapped back to itself |
| Fence.UnfenceUnclosed | src/aiscrapelite/llm.py:88-92 | when no two fences are disjoint, the regex finds nothing and the text is kept as it is |
| Fence.UnfenceWithoutTicks | src/aiscrapelite/scraper.py:20-23 | a text without three backticks is handed to the parser unchanged |
| Planner.ParserInput | src/aiscrapelite/llm.py:84-92 | the parser gets the group the fence pattern captures in the stripped reply when it matches, and the stripped reply otherwise; a reply without three backticks goes as it is. `FencedReplyIsContent` and `UnclosedFenceParsedWhole` cover the fenced replies |
| Planner.SurroundingSpaceIgnored | src/aiscrapelite/llm.py:84 | Python whitespace around the reply never changes the parser input or the plan |
| Planner.FencedReplyIsContent | src/aiscrapelite/llm.py:84-96 | a fenced reply is planned exactly as its content alone |
| Planner.UnclosedFenceParsedWhole | src/aiscrapelite/llm.py:84-92 | a reply whose fence never closes is parsed as the whole stripped reply |
| Planner.UnparsableReplyPlansNothing | src/aiscrapelite/llm.py:95-101 | a reply that does not decode yields the empty plan, which is falsy |
| Planner.PlanFromReply | src/aiscrapelite/llm.py:94-101 | the plan is the decoded value when decoding succeeds and `[]` when it fails |
| Validation.Validate | src/aiscrapelite/scraper.py:11-50 | a decode failure gives an invalid report holding the unwrapped text and one `Invalid JSON: ` message. The call raises exactly when some field is required and the parsed value is not a dict, list or str. Otherwise the data is the parsed value, the report is valid iff no error was reported, there are no more errors than required fields, and the errors are `MissingMessages` of the parsed value, which `MissingIffAbsent` relates to the absent fields |
| Validation.MissingIffAbsent | src/aiscrapelite/scraper.py:36-40 | `Missing field: f` is reported iff `f` is required and `f in parsed` is false |
| Validation.MissingMessagesAppend | src/aiscrapelite/scraper.py:37-39 | the errors follow the order of the required fields |
| Validation.MissingMessageInjective | src/aiscrapelite/scraper.py:39 | two error messages are equal only when they name the same field |
| Validation.Member | src/aiscrapelite/scraper.py:38 | `field in parsed` is key membership for a dict, element membership for a list and substring for a str. It raises for any other value |
| Validation.MissingMessages | src/aiscrapelite/scraper.py:36-40 | the membership tests raise exactly when some field is required of a value that is not a container. There are never more messages than fields |
| Validation.ValidateData | src/aiscrapelite/scraper.py:17-50 | the imperative version agrees with `Validate` on every input: the decode-error report, the raise, and the report that the field loop builds |
| Validation.CheckFields | src/aiscrapelite/scraper.py:36-40 | the loop over the required fields leaves exactly the `Missing field` messages of `MissingMessages`, in order, with `valid` set iff that list is empty. It stops with a raise exactly when `MissingMessages` does |
| Snapshot.ScanFrom | src/aiscrapelite/get_snapshot.py:19-82 | the scan keeps the number of elements. `MarkerIffListed` and `LineCount` state what it marks and writes |
| Snapshot.Index | src/aiscrapelite/get_snapshot.py:12-86 | indexing keeps the number of elements. `OnlyMarkersChange`, `MarkersAreHandles` and `IndexIdempotent` state what else it keeps and what it marks |
| Snapshot.CandidatesHaveKind | src/aiscrapelite/get_snapshot.py:49-79 | an element takes a branch of the description chain iff it matches one of the selectors |
| Snapshot.AnchorIsLink | src/aiscrapelite/get_snapshot.py:49-54 | an `a` element is described as a LINK, whatever its role |
| Snapshot.LinkLabelFallback | src/aiscrapelite/get_snapshot.py:51-52 | a link's label is its trimmed text cut to 50 characters if that is non-empty. Failing that it is the aria-label, then the href, then `link` |
| Snapshot.Label | src/aiscrapelite/get_snapshot.py:49-79 | every description ends in a non-empty fallback word, so no label is empty |
| Snapshot.LineCount | src/aiscrapelite/get_snapshot.py:31-82 | the scan writes one line per visible candidate, and only for those |
| Snapshot.MarkerIffListed | src/aiscrapelite/get_snapshot.py:13-45 | after indexing, an element carries a marker iff it is a visible candidate. Its marker is the number of visible candidates before it |
| Snapshot.MarkersAreHandles | src/aiscrapelite/get_snapshot.py:22-45 | each number below the count of visible candidates marks exactly one element, and no larger number marks any |
| Snapshot.EntriesNumbered | src/aiscrapelite/get_snapshot.py:45-81 | the lines are numbered consecutively from the first handle |
| Snapshot.OnlyMarkersChange | src/aiscrapelite/get_snapshot.py:13-45 | indexing changes nothing about the page except the `data-idx` markers |
| Snapshot.IndexIdempotent | src/aiscrapelite/get_snapshot.py:12-16 | indexing an indexed page gives the same markers and lines again, so no stale handle survives a pass |
| Snapshot.SummaryLayout | src/aiscrapelite/get_snapshot.py:84-92 | split at newlines, the summary is the URL line, the title line, a blank line, `Elements:` and then the element lines. A page with no listed element ends in one empty line |
| Snapshot.RemoveMarkers | src/aiscrapelite/get_snapshot.py:13-16 | the `forEach` over `[data-idx]` removes every marker and changes nothing else |
| Snapshot.NumberElements | src/aiscrapelite/get_snapshot.py:19-82 | the `forEach` over the selector matches, with its running `visibleIdx`, marks and describes exactly as the scan does |
| Snapshot.ScanPage | src/aiscrapelite/get_snapshot.py:12-84 | clearing then scanning yields the indexed page and the lines joined by newlines |
| Executor.Actions | exec_commands.py:40-69 | each of the six verbs makes one or two steps and any other action none. Only a wait makes a step that is not a page call, and it makes exactly one |
| Executor.RunSteps | exec_commands.py:40-78 | no steps, or only sleeps, never count as a failed call. A sleep step always has a duration a float can hold, because `WaitSteps` turns a larger one into a failed step. `RaisingCallFails` states that a raise ends the command |
| Executor.ExecuteAppend | exec_commands.py:19-78 | running a plan is running its first part and then its rest from the page reached. Every command runs in order, whatever the outcomes before it |
| Executor.ExecuteOne | exec_commands.py:19-78 | a one-command plan has that command's outcome |
| Executor.EmptyPlanSucceeds | exec_commands.py:17-80 | an empty plan leaves the page alone and reports success |
| Executor.MissingTargetSkipped | exec_commands.py:33-36 | a command whose index marks no element makes no call and records a failure. It is skipped without the pause |
| Executor.NoIndexNoCheck | exec_commands.py:33 | a command without an index never looks for its element |
| Executor.UnknownActionCompletes | exec_commands.py:40-73 | an action outside the six verbs makes no call and completes after the half-second pause |
| Executor.ScrollDirection | exec_commands.py:60-66 | a scroll goes 500 pixels up iff its value is `up`; any other value scrolls 500 down |
| Executor.WaitSteps | exec_commands.py:68-69 | a wait makes exactly one step, and that step raises iff the value is truthy and either `int()` rejects it or the int is at least 2^1024 - 2^970, too large for the float sum in `asyncio.sleep`. Any sleep it makes is shorter than that bound |
| Executor.WaitDuration | exec_commands.py:68-69 | a wait sleeps 2 seconds without a value, and `int(value)` seconds when that converts to an int below 2^1024 - 2^970. A value that does not convert, or converts to a larger int, whose sleep raises OverflowError, is a failed step |
| Executor.NonNumericWaitFails | exec_commands.py:33-78 | a wait whose value is not an integer, or an integer too large for a float, fails without touching the page, with or without an index, unless the index marks no element and the command is skipped |
| Executor.PressAndClickWaitForLoad | exec_commands.py:40-55 | a click and a press of Enter are both followed by a 10-second network-idle wait. Enter goes to the element when there is an index, and to the keyboard when there is none |
| Executor.RaisingCallFails | exec_commands.py:75-78 | a call that raises ends the command as a failure, and the rest of its steps are not made |
| Executor.AllCompletedSnoc | exec_commands.py:35-78 | the success flag stays true exactly while every command so far completed |
| Executor.RunCommand | exec_commands.py:21-36 | a command that is not a dict raises at `cmd.get`, and nothing catches it |
| Executor.Execute | exec_commands.py:19-27 | a plan yields one outcome per command. It raises iff some command is not a dict |
| Executor.ExecuteCommands | exec_commands.py:4-80 | the loop with its `success` flag returns the page the plan leads to, together with whether every command completed. It raises `AttributeError` when the plan does |
| Markdown.RemoveBlocks | src/aiscrapelite/html_to_markdown.py:16-28 | a substitution never lengthens the page. `RemoveBlocksUnchangedIff` states when it changes it and `BlockRemoved` what it removes |
| Markdown.PageToMarkdown | src/aiscrapelite/html_to_markdown.py:5-37 | the result is never longer than what markdownify produced from the cleaned page. `PageToMarkdownIsClean` states that it is tidy |
| Markdown.BlockLengthIsLazyMatch | src/aiscrapelite/html_to_markdown.py:16-19 | the block matched at a position ends at the first closing tag after the first `>`, case ignored. That is the shortest match of `<tag[^>]*>.*?</tag>` |
| Markdown.BlockRemoved | src/aiscrapelite/html_to_markdown.py:19-28 | a well-formed block after plain text is removed whole, and the text around it is kept |
| Markdown.NoClosingTagUnchanged | html_to_markdown.py:17-26 | a substitution leaves a page without its closing tag unchanged |
| Markdown.RemoveBlocksUnchangedIff | html_to_markdown.py:17-26 | a substitution changes the page exactly when its expression matches at some position. An opening tag never closed after it leaves the page alone, even after an earlier closing tag |
| Markdown.NoMarkupUnchanged | src/aiscrapelite/html_to_markdown.py:16-28 | a page without `<` passes the four substitutions unchanged |
| Markdown.PlainPageReachesMarkdownify | src/aiscrapelite/html_to_markdown.py:19-31 | markdownify receives such a page unchanged |
| Markdown.Collapse | src/aiscrapelite/html_to_markdown.py:35 | the substitution never lengthens the text. It leaves a leading run of newlines alone when it is shorter than three, and shortens it to two otherwise |
| Markdown.CollapseRun | src/aiscrapelite/html_to_markdown.py:35 | a whole run of three or more newlines between other characters becomes exactly two, and the text on each side is treated on its own: `a\n\n\nb` becomes `a\n\nb` |
| Markdown.CollapseHasNoTriple | src/aiscrapelite/html_to_markdown.py:35 | after the substitution no three newlines follow one another |
| Markdown.CollapseUnchangedIff | src/aiscrapelite/html_to_markdown.py:35 | the substitution changes a text iff it holds three newlines in a row |
| Markdown.CollapseIdempotent | html_to_markdown.py:33 | substituting twice is substituting once |
| Markdown.CollapseKeepsText | src/aiscrapelite/html_to_markdown.py:35 | the substitution removes newlines and nothing else |
| Markdown.TidyIsClean | src/aiscrapelite/html_to_markdown.py:35-37 | the returned markdown has no three newlines in a row and no surrounding whitespace |
| Markdown.TidyIdempotent | src/aiscrapelite/html_to_markdown.py:33-37 | tidying tidy markdown changes nothing |
| Markdown.PageToMarkdownIsClean | src/aiscrapelite/html_to_markdown.py:5-37 | whatever markdownify produces, `page_to_markdown` returns clean markdown |
| Controller.Rounds | src/aiscrapelite/scraper.py:76-102 | a loop that returns makes no more rounds than the iterations left. `RoundsShaped` states what each round did |
| Controller.Finish | src/aiscrapelite/scraper.py:104-113 | after the loop, only the membership test can raise, and a returned result keeps the loop's rounds. `ScrapeReport` states what it reports |
| Controller.Scrape | src/aiscrapelite/scraper.py:53-117 | a returned result has at most `max_iterations` rounds. `ScrapeShaped` and `ScrapeReport` state the rest |
| Controller.RoundsShaped | src/aiscrapelite/scraper.py:76-102 | a loop that returns makes at most `max_iterations` rounds. Each round ran its whole plan, only a non-empty plan leads to another round, and the loop ends early only on an empty plan |
| Controller.ScrapeShaped | src/aiscrapelite/scraper.py:76-113 | the rounds of `scrape` have that shape |
| Controller.ScrapeReport | src/aiscrapelite/scraper.py:104-113 | the result is the validation of what the extractor made of the final page's markdown. That markdown is clean, and `scrape` raises after the loop iff the validation does |
| Controller.NoIterations | src/aiscrapelite/scraper.py:76-77 | with no iterations allowed, the page is extracted as it was opened |
| Controller.UnparsableReplyStops | src/aiscrapelite/scraper.py:81-95 | an unparsable first reply ends the loop after the indexing pass, before any command |
| Controller.RoundRaises | src/aiscrapelite/scraper.py:89-99 | a plan without a length raises `TypeError`. A non-empty dict or string plan, or a plan holding a command that is not a dict, raises `AttributeError`, and the loop ends |
| Controller.RoundStops | src/aiscrapelite/scraper.py:93-95 | an empty plan ends the loop on the page just indexed |
| Controller.RoundGoesOn | src/aiscrapelite/scraper.py:97-102 | a non-empty list plan is executed, and the next round starts from the page after the one-second settle |
| Controller.RoundsExhausted | src/aiscrapelite/scraper.py:77 | once the budget is spent, no round is made |
| Controller.StartRound | src/aiscrapelite/scraper.py:81-88 | a round changes only the markers of the page's elements and leaves one exactly on each listed element. It describes the page in one line per listed element, and asks the planner about that summary and the goal. It is the round start the loop is given |
| Controller.RunLoop | src/aiscrapelite/scraper.py:76-102 | the `while` loop with its counter computes the rounds |
| Controller.ParseArgs | src/aiscrapelite/scraper.py:124-129 | fewer than two arguments print the usage and exit with status 1. Otherwise the URL is the first argument |
| Controller.GoalWords | src/aiscrapelite/scraper.py:129-131 | the goal is the remaining arguments joined by single spaces, so splitting it gives them back |
| Controller.CliMakesOneRound | src/aiscrapelite/scraper.py:133 | the command line runs `scrape` with its default budget of one round |
| Values.IntLiteral | exec_commands.py:69 | a text that `int()` reads holds, inside its padding, a digit at the end and a digit or sign at the front. A negative value has a minus sign, and padding alone is not a number. `IntLiteralOfNumeral` is the inverse direction, and `LongNumeralRejected` the 4300-digit limit |
| Values.ToInt | exec_commands.py:69 | `int()` of a JSON integer is itself, of a boolean 0 or 1, and of a float its truncation. It raises for null, a list or an object. A string is read as `IntLiteral` reads it, with its 4300-digit limit |
| Values.IntLiteralOfNumeral | exec_commands.py:69 | `int()` reads back any decimal numeral of at most 4300 digits, whether signed or surrounded by the whitespace `int()` skips |
| Values.LongNumeralRejected | exec_commands.py:69 | `int()` raises for a numeral of more than 4300 digits, counting leading zeros, however it is signed or padded: `int("1" + "0" * 4300)` raises |
| Values.SeparatorIsNotIntSpace | exec_commands.py:69 | `int()` does not skip the ASCII separators U+001C to U+001F, which `str.strip()` removes: `int("\x1c5")` raises |
| Values.WordIsNotInteger | exec_commands.py:69 | `int("soon")` raises |

## Left out

- The browser session: `async_playwright`, `launch`, `goto`, the 15-second
  load wait and `browser.close()`. The loop starts from the page that
  `goto(url)` opened, which is a parameter.
- The language-model client and the prompts of `get_llm_commands` and
  `extract_info`, including the 6000-character cut of the markdown. The
  replies are function parameters.
- The JSON grammar. `json.loads` is a parameter that returns a value or a
  decode error. NaN and Infinity are not modelled, and floats are exact reals.
- markdownify's conversion, which is a parameter.
- The layout queries of the indexer: `offsetParent`, the computed
  `position`, `visibility` and `display`. Each element records them as
  booleans.
- The page's element list is a sequence in document order. The marker clear
  and the scan are modelled as one step, so a page that changes between the
  two `evaluate` calls is not modelled.
- Strings are sequences of code points. JavaScript's UTF-16 length, used by
  `slice(0, 50)`, is not modelled.
- `sys.int_max_str_digits` is fixed at its default of 4300. Setting it
  through `PYTHONINTMAXSTRDIGITS` or `-X int_max_str_digits` is not
  modelled.
- Values.IntLiteralOfNumeral: the model of `int()` accepts ASCII digits
  only. Python also accepts other Unicode decimal digits, which `int()`
  converts before reading the literal.
- Logging with `print` is not modelled, nor is the element count printed
  at scraper.py:84.
- The clock. Every sleep calls the `pause` parameter with its duration in
  seconds, and `pause` decides what the page looks like afterwards.
- Writing `data.json` and `json.dumps` of the result.
- Exceptions other than `TypeError` from `len` or `in` and `AttributeError`
  from `.get`. Among them are the ValueError `json.loads` raises for an
  integer of more than 4300 digits and its RecursionError for deep nesting,
  which `get_llm_commands` does not catch. Any other exception from the browser inside the executor's
  `try` is the `raised` flag of `perform`.
- `required_fields=None` is the empty list. Both skip the field check.
  The required fields are strings.
- A non-empty dict or string plan is modelled as raising at the first
  command. The source iterates the dict's keys or the string's characters,
  and each is a string without `.get`, so the result is the same.

## Where the code and its docstrings differ

The model follows the code.

- The docstring of `get_llm_commands` at src/aiscrapelite/llm.py:21-25 says
  it returns a list of commands, or an empty list. The code returns whatever
  `json.loads` decodes, so the reply can also be a number, a boolean, `null`,
  a dict or a string. The loop's `len(commands)` then raises for a number, a
  boolean or `null`. A non-empty dict or string plan, or a list holding a
  command that is not a dict, raises at `cmd.get`, which sits outside the
  executor's `try` (`Controller.RoundRaises`).

=== FILE: controller.dfy ===
/**
  The scrape loop (`scrape`, scraper.py) and the command line. Each round
  indexes the page, asks the planner for commands, stops on an empty plan
  and otherwise runs the commands and pauses; the loop makes at most
  `max_iterations` rounds. Afterwards the page is converted to markdown,
  the extractor reads it, and the extraction is validated, exactly once,
  however the loop ended.

  Everything outside the process is a parameter of `World`: the browser,
  the page's DOM, URL, title and HTML, the planning and extracting
  language model, `json.loads` and markdownify.
*/
module Controller {

  import opened Options
  import opened Text
  import opened Values
  import opened Snapshot
  import opened Planner
  import opened Executor
  import opened Markdown
  import opened Validation

  /** Seconds the page is given to settle after a round's commands. */
  const Settle: real := 1.0

  /** The loop's default bound. */
  const DefaultIterations: int := 1

  datatype World<!P> = World(
    browser: Browser<P>,
    dom: P -> Dom,                  // the page's elements, in document order
    withDom: (P, Dom) -> P,         // the page after the indexer rewrote its markers
    url: P -> string,
    title: P -> string,
    content: P -> string,           // `page.content()`
    planner: (string, string) -> string,   // the planner's reply to a summary and a goal
    extractor: (string, string) -> string, // `extract_info(markdown, goal)`
    loads: string -> Decoded,
    markdownify: string -> string
  )

  /** One round of the loop: the summary the planner saw, the plan it
      returned and each command's outcome (none when the plan was empty). */
  datatype Round = Round(summary: string, plan: Json, outcomes: seq<Outcome>)

  /** The page the loop ended on and its rounds. */
  datatype Loop<P> = Loop(page: P, rounds: seq<Round>)

  /** `get_page_summary`: index the page and describe it. */
  function Survey<P>(w: World<P>, page: P): (r: (P, string))
  {
    var scan := Index(w.dom(page));
    var indexed := w.withDom(page, scan.dom);
    (indexed, Summary(w.url(indexed), w.title(indexed), Lines(scan.entries)))
  }

  /** The start of a round: the indexed page, its summary and the plan
      the planner returns for it. */
  datatype Look<P> = Look(page: P, summary: string, plan: Json)

  function LookAt<P>(w: World<P>, goal: string, page: P): (r: Look<P>)
    ensures r.page == Survey(w, page).0 && r.summary == Survey(w, page).1
  {
    var (indexed, summary) := Survey(w, page);
    Look(indexed, summary, PlanFromReply(w.planner(summary, goal), w.loads))
  }

  function Looker<P>(w: World<P>, goal: string): P -> Look<P> {
    page => LookAt(w, goal, page)
  }

  /** The rounds that remain once `iteration` of them have been made,
      `look` starting each one. `len(commands)` raises on a plan without a
      length; a non-empty plan that is a dict or a string raises at the
      executor's first `.get`, because iterating it gives strings. */
  function Rounds<P>(b: Browser<P>, look: P -> Look<P>, page: P, iteration: int, maxIterations: int): (r: Result<Loop<P>>)
    ensures r.Returned? ==> |r.value.rounds| <= if iteration < maxIterations then maxIterations - iteration else 0
    decreases maxIterations - iteration
  {
    if iteration >= maxIterations then Returned(Loop(page, []))
    else
      var start := look(page);
      var plan := start.plan;
      if Len(plan).None? then Raised(LenTypeError)
      else if !Truthy(plan) then Returned(Loop(start.page, [Round(start.summary, plan, [])]))
      else if !plan.JArray? then Raised(GetAttributeError)
      else
        match Execute(b, start.page, plan.items)
        case Raised(e) => Raised(e)
        case Returned(run) =>
          var rest := Rounds(b, look, b.pause(run.page, Settle), iteration + 1, maxIterations);
          Then([Round(start.summary, plan, run.outcomes)], rest)
  }

  /** `rest` after `done`. */
  function Then<P>(done: seq<Round>, rest: Result<Loop<P>>): (r: Result<Loop<P>>)
    ensures r.Raised? <==> rest.Raised?
  {
    match rest
    case Raised(e) => Raised(e)
    case Returned(l) => Returned(Loop(l.page, done + l.rounds))
  }

  /** What `scrape` returns, with the rounds that led to it and the
      markdown the extractor read. */
  datatype Scraped = Scraped(report: Report, rounds: seq<Round>, markdown: string)

  /** The part of `scrape` after the loop: markdown, extraction,
      validation. */
  function Finish<P>(w: World<P>, goal: string, required: seq<string>, loop: Loop<P>): (r: Result<Scraped>)
    ensures r.Raised? ==> r.error == MembershipTypeError
    ensures r.Returned? ==> r.value.rounds == loop.rounds
  {
    var markdown := PageToMarkdown(w.content(loop.page), w.markdownify);
    match Validate(w.extractor(markdown, goal), required, w.loads)
    case Raised(e) => Raised(e)
    case Returned(report) => Returned(Scraped(report, loop.rounds, markdown))
  }

  /** `scrape(url, goal, required_fields, max_iterations)` on the page
      `goto(url)` opened. `None` for `required_fields` is the empty list:
      both skip the check. */
  function Scrape<P>(w: World<P>, page: P, goal: string, required: seq<string>, maxIterations: int): (r: Result<Scraped>)
    ensures r.Returned? ==> |r.value.rounds| <= if maxIterations > 0 then maxIterations else 0
  {
    match Rounds(w.browser, Looker(w, goal), page, 0, maxIterations)
    case Raised(e) => Raised(e)
    case Returned(loop) => Finish(w, goal, required, loop)
  }

  // ---------------------------------------------------------------------
  // Properties

  /** A round either ran every command of a non-empty list, or had an
      empty plan and ran nothing. */
  predicate Ran(round: Round) {
    if Truthy(round.plan) then
      round.plan.JArray? && |round.outcomes| == |round.plan.items|
    else
      round.outcomes == []
  }

  /** The rounds of a loop allowed `budget` of them: no more than that,
      each one ran, the loop went on only after a non-empty plan, and it
      stopped early only on an empty one. */
  predicate Shaped(rounds: seq<Round>, budget: int) {
    && |rounds| <= (if budget > 0 then budget else 0)
    && (forall i :: 0 <= i < |rounds| ==> Ran(rounds[i]))
    && (forall i :: 0 <= i < |rounds| - 1 ==> Truthy(rounds[i].plan))
    && (|rounds| < budget ==> |rounds| > 0 && !Truthy(rounds[|rounds| - 1].plan))
  }

  lemma ShapedCons(round: Round, rest: seq<Round>, budget: int)
    requires Ran(round) && Truthy(round.plan) && Shaped(rest, budget - 1) && budget > 0
    ensures Shaped([round] + rest, budget)
  {
    var rounds := [round] + rest;
    forall i | 0 <= i < |rounds| ensures Ran(rounds[i]) {
      if i > 0 {
        assert rounds[i] == rest[i - 1];
      }
    }
    forall i | 0 <= i < |rounds| - 1 ensures Truthy(rounds[i].plan) {
      if i > 0 {
        assert rounds[i] == rest[i - 1];
      }
    }
    if |rounds| < budget {
      assert rounds[|rounds| - 1] == rest[|rest| - 1];
    }
  }

  /** The loop's rounds are shaped: the executor's outcomes never decide
      whether it goes on, only the plan does. */
  lemma {:induction false} RoundsShaped<P>(b: Browser<P>, look: P -> Look<P>, page: P, iteration: int, maxIterations: int)
    ensures var r := Rounds(b, look, page, iteration, maxIterations);
            r.Returned? ==> Shaped(r.value.rounds, maxIterations - iteration)
    decreases maxIterations - iteration
  {
    if iteration < maxIterations {
      var start := look(page);
      var plan := start.plan;
      if Len(plan).Some? && Truthy(plan) && plan.JArray? {
        var run := Execute(b, start.page, plan.items);
        if run.Returned? {
          var next := b.pause(run.value.page, Settle);
          RoundsShaped(b, look, next, iteration + 1, maxIterations);
          var rest := Rounds(b, look, next, iteration + 1, maxIterations);
          if rest.Returned? {
            ShapedCons(Round(start.summary, plan, run.value.outcomes), rest.value.rounds, maxIterations - iteration);
          }
        }
      }
    }
  }

  /** The rounds `scrape` makes are shaped by its bound. */
  lemma ScrapeShaped<P>(w: World<P>, page: P, goal: string, required: seq<string>, maxIterations: int)
    ensures var r := Scrape(w, page, goal, required, maxIterations);
            r.Returned? ==> Shaped(r.value.rounds, maxIterations)
  {
    RoundsShaped(w.browser, Looker(w, goal), page, 0, maxIterations);
  }

  /** However the loop ended, the report is the validation of what the
      extractor read off the final markdown, and that markdown is clean. */
  lemma ScrapeReport<P>(w: World<P>, page: P, goal: string, required: seq<string>, maxIterations: int)
    ensures var r := Scrape(w, page, goal, required, maxIterations);
            r.Returned? ==>
              && Validate(w.extractor(r.value.markdown, goal), required, w.loads) == Returned(r.value.report)
              && NoTriple(r.value.markdown)
    ensures var loop := Rounds(w.browser, Looker(w, goal), page, 0, maxIterations);
            loop.Returned? ==>
              (Scrape(w, page, goal, required, maxIterations).Raised? <==>
               Validate(w.extractor(PageToMarkdown(w.content(loop.value.page), w.markdownify), goal), required, w.loads).Raised?)
  {
    var loop := Rounds(w.browser, Looker(w, goal), page, 0, maxIterations);
    if loop.Returned? {
      PageToMarkdownIsClean(w.content(loop.value.page), w.markdownify);
    }
  }

  /** With no iterations allowed the page is converted as it was opened. */
  lemma NoIterations<P>(w: World<P>, page: P, goal: string, required: seq<string>, maxIterations: int)
    requires maxIterations <= 0
    ensures Scrape(w, page, goal, required, maxIterations) == Finish(w, goal, required, Loop(page, []))
  {
  }

  /** A reply the planner's parser rejects ends the loop in its first
      round, with nothing executed, and the page is converted as the
      indexer left it. */
  lemma UnparsableReplyStops<P>(w: World<P>, page: P, goal: string, required: seq<string>, maxIterations: int)
    requires maxIterations > 0
    requires w.loads(ParserInput(w.planner(Survey(w, page).1, goal))).DecodeError?
    ensures var (indexed, summary) := Survey(w, page);
            Scrape(w, page, goal, required, maxIterations)
            == Finish(w, goal, required, Loop(indexed, [Round(summary, NoCommands, [])]))
  {
    var start := LookAt(w, goal, page);
    assert start.plan == NoCommands;
    assert Looker(w, goal)(page) == start;
  }

  lemma ThenThen<P>(a: seq<Round>, b: seq<Round>, rest: Result<Loop<P>>)
    ensures Then(a, Then(b, rest)) == Then(a + b, rest)
  {
    match rest
    case Raised(_) =>
    case Returned(l) => assert a + (b + l.rounds) == (a + b) + l.rounds;
  }

  lemma ThenNothing<P>(rest: Result<Loop<P>>)
    ensures Then([], rest) == rest
  {
    match rest
    case Raised(_) =>
    case Returned(l) => assert [] + l.rounds == l.rounds;
  }

  lemma RoundRaises<P>(b: Browser<P>, look: P -> Look<P>, page: P, iteration: int, maxIterations: int, done: seq<Round>)
    requires iteration < maxIterations
    requires var plan := look(page).plan;
             Len(plan).None? || (Truthy(plan) && !plan.JArray?) ||
             (plan.JArray? && Truthy(plan) && Execute(b, look(page).page, plan.items).Raised?)
    ensures var plan := look(page).plan;
            var e := if Len(plan).None? then LenTypeError else GetAttributeError;
            Then(done, Rounds(b, look, page, iteration, maxIterations)) == Raised(e)
  {
  }

  lemma RoundStops<P>(b: Browser<P>, look: P -> Look<P>, page: P, iteration: int, maxIterations: int, done: seq<Round>)
    requires iteration < maxIterations
    requires Len(look(page).plan).Some? && !Truthy(look(page).plan)
    ensures var start := look(page);
            Then(done, Rounds(b, look, page, iteration, maxIterations))
            == Returned(Loop(start.page, done + [Round(start.summary, start.plan, [])]))
  {
  }

  lemma RoundsExhausted<P>(b: Browser<P>, look: P -> Look<P>, page: P, iteration: int, maxIterations: int, done: seq<Round>)
    requires iteration >= maxIterations
    ensures Then(done, Rounds(b, look, page, iteration, maxIterations)) == Returned(Loop(page, done))
  {
    assert done + [] == done;
  }

  lemma RoundGoesOn<P>(b: Browser<P>, look: P -> Look<P>, page: P, iteration: int, maxIterations: int)
    requires iteration < maxIterations
    requires var plan := look(page).plan;
             plan.JArray? && Truthy(plan) && Execute(b, look(page).page, plan.items).Returned?
    ensures var start := look(page);
            var run := Execute(b, start.page, start.plan.items).value;
            Rounds(b, look, page, iteration, maxIterations)
            == Then([Round(start.summary, start.plan, run.outcomes)], Rounds(b, look, b.pause(run.page, Settle), iteration + 1, maxIterations))
  {
  }

  /** `get_page_summary` followed by `get_llm_commands`: the indexer's two
      passes rewrite only the markers, leave one exactly on each listed
      element and write one line per listed element; the summary of those
      lines is what the planner is asked about. This is the start of a
      round that `Looker` gives the loop. */
  method StartRound<P>(w: World<P>, goal: string, page: P)
    returns (indexed: P, marked: Dom, lines: seq<string>, summary: string, commands: Json)
    ensures indexed == w.withDom(page, marked)
    ensures |marked| == |w.dom(page)| && ClearMarkers(marked) == ClearMarkers(w.dom(page))
    ensures forall k :: 0 <= k < |marked| ==> (marked[k].marker.Some? <==> IsListed(w.dom(page)[k]))
    ensures |lines| == ListedCount(w.dom(page))
    ensures summary == Summary(w.url(indexed), w.title(indexed), lines)
    ensures commands == PlanFromReply(w.planner(summary, goal), w.loads)
    ensures Looker(w, goal)(page) == Look(indexed, summary, commands)
  {
    var dom := w.dom(page);
    var cleared := RemoveMarkers(dom);
    marked, lines := NumberElements(cleared);
    indexed := w.withDom(page, marked);
    summary := Summary(w.url(indexed), w.title(indexed), lines);
    commands := PlanFromReply(w.planner(summary, goal), w.loads);
    OnlyMarkersChange(dom);
    forall k | 0 <= k < |marked| ensures marked[k].marker.Some? <==> IsListed(dom[k]) {
      MarkerIffListed(dom, k);
    }
    LineCount(cleared, 0);
    ListedCountCleared(dom);
  }

  /** The body of the loop: one round on `page` after the rounds `done`,
      `look` standing for `get_page_summary` and `get_llm_commands` (as
      `StartRound` shows). It either finishes the loop, with its result,
      or hands the next round its page. */
  method PlayRound<P>(b: Browser<P>, look: P -> Look<P>, page: P, iteration: int, maxIterations: int, done: seq<Round>)
    returns (finished: bool, r: Result<Loop<P>>, next: P, done': seq<Round>)
    requires iteration < maxIterations
    ensures finished ==> r == Then(done, Rounds(b, look, page, iteration, maxIterations))
    ensures !finished ==>
              Then(done, Rounds(b, look, page, iteration, maxIterations))
              == Then(done', Rounds(b, look, next, iteration + 1, maxIterations))
  {
    next, done' := page, done;
    var start := look(page);
    var commands := start.plan;
    if Len(commands).None? {
      RoundRaises(b, look, page, iteration, maxIterations, done);
      return true, Raised(LenTypeError), next, done';
    }
    if !Truthy(commands) {
      RoundStops(b, look, page, iteration, maxIterations, done);
      return true, Returned(Loop(start.page, done + [Round(start.summary, commands, [])])), next, done';
    }
    if !commands.JArray? {
      RoundRaises(b, look, page, iteration, maxIterations, done);
      return true, Raised(GetAttributeError), next, done';
    }
    var run := Execute(b, start.page, commands.items);
    if run.Raised? {
      RoundRaises(b, look, page, iteration, maxIterations, done);
      return true, Raised(run.error), next, done';
    }
    next := b.pause(run.value.page, Settle);
    RoundGoesOn(b, look, page, iteration, maxIterations);
    ThenThen(done, [Round(start.summary, commands, run.value.outcomes)], Rounds(b, look, next, iteration + 1, maxIterations));
    done' := done + [Round(start.summary, commands, run.value.outcomes)];
    finished, r := false, Returned(Loop(next, done'));
  }

  /** The loop of `scrape` as written, with its iteration counter. It
      makes the rounds `Rounds` describes. */
  method RunLoop<P>(b: Browser<P>, look: P -> Look<P>, page: P, maxIterations: int) returns (r: Result<Loop<P>>)
    ensures r == Rounds(b, look, page, 0, maxIterations)
  {
    ghost var whole := Rounds(b, look, page, 0, maxIterations);
    var iteration := 0;
    var current := page;
    var done: seq<Round> := [];
    ThenNothing(whole);
    while iteration < maxIterations
      invariant whole == Then(done, Rounds(b, look, current, iteration, maxIterations))
      decreases maxIterations - iteration
    {
      var finished, result, next, done' := PlayRound(b, look, current, iteration, maxIterations, done);
      if finished {
        return result;
      }
      current, done := next, done';
      iteration := iteration + 1;
    }
    RoundsExhausted(b, look, current, iteration, maxIterations, done);
    return Returned(Loop(current, done));
  }

  // ---------------------------------------------------------------------
  // The command line

  datatype Invocation =
    | Usage(exitCode: int)            // too few arguments: usage printed
    | Start(url: string, goal: string)

  /** `sys.argv` (the script name first): a URL and a goal of one or more
      words, joined with single spaces. */
  function ParseArgs(argv: seq<string>): (r: Invocation)
    ensures r.Usage? <==> |argv| < 3
    ensures r.Usage? ==> r.exitCode == 1
    ensures r.Start? ==> r.url == argv[1]
  {
    if |argv| < 3 then Usage(1) else Start(argv[1], Join(argv[2..], " "))
  }

  /** The goal's words are the arguments after the URL, when none of them
      holds a space itself (a quoted goal is one argument). */
  lemma GoalWords(argv: seq<string>)
    requires |argv| >= 3
    requires forall i :: 2 <= i < |argv| ==> ' ' !in argv[i]
    ensures Split(ParseArgs(argv).goal, ' ') == argv[2..]
  {
    var words := argv[2..];
    forall i | 0 <= i < |words| ensures ' ' !in words[i] {
      assert words[i] == argv[i + 2];
    }
    SplitJoin(words, ' ');
  }

  /** The command line runs `scrape` with the defaults: one round at most
      and no required fields. */
  function Cli<P>(w: World<P>, argv: seq<string>, open: string -> P): (r: Result<Option<Scraped>>)
    ensures |argv| < 3 ==> r == Returned(None)
  {
    match ParseArgs(argv)
    case Usage(_) => Returned(None)
    case Start(url, goal) =>
      match Scrape(w, open(url), goal, [], DefaultIterations)
      case Raised(e) => Raised(e)
      case Returned(s) => Returned(Some(s))
  }

  /** A run from the command line makes at most one round. */
  lemma CliMakesOneRound<P>(w: World<P>, argv: seq<string>, open: string -> P)
    ensures var r := Cli(w, argv, open);
            r.Returned? && r.value.Some? ==> |r.value.value.rounds| <= 1
  {
  }
}

=== FILE: executor.dfy ===
/**
  The command executor (`execute_commands`, exec_commands.py): each command
  of the plan names an `action`, an element `index` and a `value`. Commands
  run in order; a command whose element is missing, or whose browser calls
  raise, is recorded as a failure and the next command runs anyway. Only a
  command that is not a dict escapes, because its fields are read outside
  the `try`.

  The browser is a parameter: `count` answers how many elements carry a
  `data-idx` marker, `perform` carries out every other Playwright call and
  says whether it raised, and `pause` is the page as it is after a sleep.
  A sleep whose duration a float cannot hold raises OverflowError before it
  starts, so it is a failed step and never reaches `pause`; every other
  sleep returns.
*/
module Executor {

  import opened Options
  import opened Values

  /** Milliseconds allowed for a click, fill, press or select. */
  const ActionTimeout: nat := 5000
  /** Milliseconds allowed for the page to become network-idle. */
  const LoadTimeout: nat := 10000
  /** Pixels one scroll moves. */
  const ScrollStep: int := 500
  /** Seconds a `wait` without a value sleeps. */
  const DefaultWait: real := 2.0
  /** Seconds between two commands. */
  const Pacing: real := 0.5

  /** 2^64 and 2^960. */
  const Two64: int := 0x1_0000_0000_0000_0000
  const Two960: int := Two64 * Two64 * Two64 * Two64 * Two64 * Two64 * Two64 * Two64
                       * Two64 * Two64 * Two64 * Two64 * Two64 * Two64 * Two64

  /** The least int a float cannot hold, 2^1024 - 2^970. The largest double
      is 2^1024 - 2^971, and an int from halfway above it on rounds to
      2^1024, so `loop.time() + delay` in `asyncio.sleep` raises
      OverflowError for every delay from here on. A delay of zero or less
      never reaches that sum. */
  const SleepOverflow: int := (0x40_0000_0000_0000 - 1) * 0x400 * Two960

  /** The Playwright calls a command makes. `target` is the `index` whose
      `data-idx` marker the locator looks for. */
  datatype Call =
    | Click(target: Json, timeout: nat)
    | Fill(target: Json, text: Json, timeout: nat)
    | PressEnter(target: Json, timeout: nat)
    | KeyboardEnter
    | SelectOption(target: Json, value: Json, timeout: nat)
    | WaitForNetworkIdle(timeout: nat)
    | ScrollBy(dy: int)

  /** One step of a command: a browser call, a sleep, or a duration that
      raises: the ValueError or TypeError of `int(value)`, or the
      OverflowError of a sleep longer than a float can hold. */
  datatype Step = Do(call: Call) | Sleep(seconds: real) | BadDuration

  /** What a browser call did to the page, and whether it raised. */
  datatype Effect<P> = Effect(page: P, raised: bool)

  datatype Browser<!P> = Browser(
    count: (P, Json) -> Option<nat>,   // `locator.count()`; `None` when it raised
    perform: (P, Call) -> Effect<P>,
    pause: (P, real) -> P
  )

  /** `value if value else "down"` compared with `"up"`. */
  function ScrollOffset(value: Json): (dy: int)
    ensures dy == -ScrollStep || dy == ScrollStep
  {
    var direction := if Truthy(value) then value else JString("down");
    if direction == JString("up") then -ScrollStep else ScrollStep
  }

  /** The steps of `wait`: `int(value)` seconds, or two when the value is
      missing or empty. */
  function WaitSteps(value: Json): (r: seq<Step>)
    ensures |r| == 1
    ensures r == [BadDuration] <==>
              Truthy(value) && (ToInt(value).None? || ToInt(value).value >= SleepOverflow)
    ensures r[0].Sleep? ==> r[0].seconds < SleepOverflow as real
  {
    if Truthy(value) then
      match ToInt(value)
      case Some(n) => if n >= SleepOverflow then [BadDuration] else [Sleep(n as real)]
      case None => [BadDuration]
    else
      [Sleep(DefaultWait)]
  }

  /** The branch of the `if`/`elif` chain for `action`. An action no branch
      names does nothing. */
  function Actions(action: Json, index: Json, value: Json): (r: seq<Step>)
    ensures |r| <= 2
    ensures r == [] <==>
              action !in {JString("click"), JString("fill"), JString("press_enter"),
                          JString("select"), JString("scroll"), JString("wait")}
    ensures action != JString("wait") ==> forall i :: 0 <= i < |r| ==> r[i].Do?
    ensures action == JString("wait") ==> |r| == 1 && !r[0].Do?
  {
    if action == JString("click") then
      [Do(Click(index, ActionTimeout)), Do(WaitForNetworkIdle(LoadTimeout))]
    else if action == JString("fill") then
      [Do(Fill(index, if Truthy(value) then value else JString(""), ActionTimeout))]
    else if action == JString("press_enter") then
      [Do(if index != JNull then PressEnter(index, ActionTimeout) else KeyboardEnter),
       Do(WaitForNetworkIdle(LoadTimeout))]
    else if action == JString("select") then
      [Do(SelectOption(index, value, ActionTimeout))]
    else if action == JString("scroll") then
      [Do(ScrollBy(ScrollOffset(value)))]
    else if action == JString("wait") then
      WaitSteps(value)
    else
      []
  }

  /** Runs `steps` until one raises; the page afterwards, and whether one
      raised. */
  function RunSteps<P>(b: Browser<P>, page: P, steps: seq<Step>): (r: (P, bool))
    ensures |steps| == 0 ==> r == (page, false)
    ensures (forall i :: 0 <= i < |steps| ==> steps[i].Sleep?) ==> !r.1
  {
    if |steps| == 0 then (page, false)
    else
      match steps[0]
      case Do(call) =>
        var effect := b.perform(page, call);
        if effect.raised then (effect.page, true) else RunSteps(b, effect.page, steps[1..])
      case Sleep(seconds) => RunSteps(b, b.pause(page, seconds), steps[1..])
      case BadDuration => (page, true)
  }

  /** How a command ended. */
  datatype Outcome =
    | Completed       // every call returned
    | TargetMissing   // no element carries its index: skipped
    | Failed          // a call raised inside the `try`

  /** One command on `page`: the page afterwards and its outcome; a
      command that is not a dict raises AttributeError at `cmd.get`. */
  function RunCommand<P>(b: Browser<P>, page: P, cmd: Json): (r: Result<(P, Outcome)>)
    ensures r.Raised? <==> !cmd.JObject?
    ensures r.Raised? ==> r.error == GetAttributeError
  {
    match cmd
    case JObject(fields) =>
      var action := Get(fields, "action");
      var index := Get(fields, "index");
      var value := Get(fields, "value");
      var found := if index == JNull then Some(true)
                   else match b.count(page, index)
                        case None => None
                        case Some(n) => Some(n != 0);
      if found == None then Returned((page, Failed))
      else if found == Some(false) then Returned((page, TargetMissing))
      else
        var (after, raised) := RunSteps(b, page, Actions(action, index, value) + [Sleep(Pacing)]);
        Returned((after, if raised then Failed else Completed))
    case _ => Raised(GetAttributeError)
  }

  /** The page after a whole plan, and each command's outcome in order. */
  datatype Run<P> = Run(page: P, outcomes: seq<Outcome>)

  /** The commands of a plan, one after the other. */
  function Execute<P>(b: Browser<P>, page: P, cmds: seq<Json>): (r: Result<Run<P>>)
    ensures r.Returned? ==> |r.value.outcomes| == |cmds|
    ensures r.Raised? <==> exists i :: 0 <= i < |cmds| && !cmds[i].JObject?
    ensures r.Raised? ==> r.error == GetAttributeError
  {
    if |cmds| == 0 then Returned(Run(page, []))
    else
      match RunCommand(b, page, cmds[0])
      case Raised(e) => Raised(e)
      case Returned((after, outcome)) =>
        match Execute(b, after, cmds[1..])
        case Raised(e) => Raised(e)
        case Returned(rest) => Returned(Run(rest.page, [outcome] + rest.outcomes))
  }

  /** `execute_commands` returns True exactly when every command completed. */
  predicate AllCompleted(outcomes: seq<Outcome>) {
    forall i :: 0 <= i < |outcomes| ==> outcomes[i] == Completed
  }

  // ---------------------------------------------------------------------
  // Properties

  /** Running two plans one after the other is running their
      concatenation: every command runs, in list order, whatever the
      outcomes of the commands before it. */
  lemma {:induction false} ExecuteAppend<P>(b: Browser<P>, page: P, a: seq<Json>, c: seq<Json>)
    ensures Execute(b, page, a + c) ==
              match Execute(b, page, a)
              case Raised(e) => Raised(e)
              case Returned(first) =>
                match Execute(b, first.page, c)
                case Raised(e) => Raised(e)
                case Returned(second) => Returned(Run(second.page, first.outcomes + second.outcomes))
  {
    if |a| == 0 {
      assert a + c == c;
      match Execute(b, page, c)
      case Raised(_) =>
      case Returned(second) => assert [] + second.outcomes == second.outcomes;
    } else {
      assert (a + c)[0] == a[0];
      assert (a + c)[1..] == a[1..] + c;
      match RunCommand(b, page, a[0])
      case Raised(_) =>
      case Returned((after, outcome)) =>
        ExecuteAppend(b, after, a[1..], c);
        match Execute(b, after, a[1..])
        case Raised(_) =>
        case Returned(first) =>
          match Execute(b, first.page, c)
          case Raised(_) =>
          case Returned(second) =>
            assert [outcome] + (first.outcomes + second.outcomes) == ([outcome] + first.outcomes) + second.outcomes;
    }
  }

  /** A plan of one command is that command. */
  lemma ExecuteOne<P>(b: Browser<P>, page: P, cmd: Json)
    ensures Execute(b, page, [cmd]) ==
              match RunCommand(b, page, cmd)
              case Raised(e) => Raised(e)
              case Returned((after, outcome)) => Returned(Run(after, [outcome]))
  {
    assert [cmd][1..] == [];
    match RunCommand(b, page, cmd)
    case Raised(_) =>
    case Returned((after, outcome)) => assert [outcome] + [] == [outcome];
  }

  /** One more turn of the loop over a plan whose first `i` commands
      returned. */
  lemma ExecuteSnoc<P>(b: Browser<P>, page: P, cmds: seq<Json>, i: nat, current: P, outcomes: seq<Outcome>)
    requires i < |cmds|
    requires Execute(b, page, cmds[..i]) == Returned(Run(current, outcomes))
    ensures RunCommand(b, current, cmds[i]).Raised? ==> Execute(b, page, cmds[..i + 1]).Raised?
    ensures RunCommand(b, current, cmds[i]).Returned? ==>
              var (after, outcome) := RunCommand(b, current, cmds[i]).value;
              Execute(b, page, cmds[..i + 1]) == Returned(Run(after, outcomes + [outcome]))
  {
    assert cmds[..i + 1] == cmds[..i] + [cmds[i]];
    ExecuteAppend(b, page, cmds[..i], [cmds[i]]);
    ExecuteOne(b, current, cmds[i]);
  }

  /** An empty plan succeeds without touching the page. */
  lemma EmptyPlanSucceeds<P>(b: Browser<P>, page: P)
    ensures Execute(b, page, []) == Returned(Run(page, []))
    ensures AllCompleted(Execute(b, page, []).value.outcomes)
  {
  }

  /** A dict command that names an index no element carries is skipped: it
      fails, and the page is as it was. */
  lemma MissingTargetSkipped<P>(b: Browser<P>, page: P, cmd: Json)
    requires cmd.JObject? && Get(cmd.fields, "index") != JNull
    requires b.count(page, Get(cmd.fields, "index")) == Some(0)
    ensures RunCommand(b, page, cmd) == Returned((page, TargetMissing))
  {
  }

  /** Without an index there is no existence check: how many elements a
      locator finds plays no part. */
  lemma NoIndexNoCheck<P>(b: Browser<P>, page: P, cmd: Json, count: (P, Json) -> Option<nat>)
    requires cmd.JObject? && Get(cmd.fields, "index") == JNull
    ensures RunCommand(b, page, cmd) == RunCommand(b.(count := count), page, cmd)
  {
    var f := cmd.fields;
    RunStepsUsesCallsOnly(b, b.(count := count), page, Actions(Get(f, "action"), Get(f, "index"), Get(f, "value")) + [Sleep(Pacing)]);
  }

  /** Running steps makes calls and sleeps, and never counts elements. */
  lemma {:induction false} RunStepsUsesCallsOnly<P>(b: Browser<P>, b': Browser<P>, page: P, steps: seq<Step>)
    requires b.perform == b'.perform && b.pause == b'.pause
    ensures RunSteps(b, page, steps) == RunSteps(b', page, steps)
    decreases |steps|
  {
    if |steps| > 0 {
      match steps[0]
      case Do(call) =>
        var effect := b.perform(page, call);
        assert effect == b'.perform(page, call);
        if !effect.raised {
          RunStepsUsesCallsOnly(b, b', effect.page, steps[1..]);
        }
      case Sleep(seconds) =>
        assert b.pause(page, seconds) == b'.pause(page, seconds);
        RunStepsUsesCallsOnly(b, b', b.pause(page, seconds), steps[1..]);
      case BadDuration =>
    }
  }

  /** The action names the executor knows. */
  predicate IsKnownAction(action: Json) {
    action in {JString("click"), JString("fill"), JString("press_enter"),
                JString("select"), JString("scroll"), JString("wait")}
  }

  /** A command with any other action makes no call, raises nothing and
      completes after the pause between commands. */
  lemma UnknownActionCompletes<P>(b: Browser<P>, page: P, cmd: Json)
    requires cmd.JObject? && !IsKnownAction(Get(cmd.fields, "action"))
    requires var index := Get(cmd.fields, "index");
             index == JNull || (b.count(page, index).Some? && b.count(page, index).value > 0)
    ensures RunCommand(b, page, cmd) == Returned((b.pause(page, Pacing), Completed))
  {
    var f := cmd.fields;
    assert Actions(Get(f, "action"), Get(f, "index"), Get(f, "value")) == [];
    assert [] + [Sleep(Pacing)] == [Sleep(Pacing)];
  }

  /** Scrolling goes up exactly when the value is `"up"`; a missing, empty
      or any other value scrolls down. */
  lemma ScrollDirection(value: Json)
    ensures ScrollOffset(value) == -500 <==> value == JString("up")
    ensures ScrollOffset(value) == 500 <==> value != JString("up")
  {
  }

  /** A wait without a value sleeps two seconds; one with an integer value
      sleeps that many; one whose value `int()` rejects, or whose integer is
      too large for a float, raises before sleeping. */
  lemma WaitDuration(value: Json)
    ensures !Truthy(value) ==> WaitSteps(value) == [Sleep(2.0)]
    ensures Truthy(value) && ToInt(value).Some? && ToInt(value).value < SleepOverflow ==>
              WaitSteps(value) == [Sleep(ToInt(value).value as real)]
    ensures Truthy(value) && ToInt(value).Some? && ToInt(value).value >= SleepOverflow ==>
              WaitSteps(value) == [BadDuration]
    ensures Truthy(value) && ToInt(value).None? ==> WaitSteps(value) == [BadDuration]
  {
  }

  /** A `wait` whose value is not a number, or is a number too large for
      a float, fails its command, and the page is left as it was, whether
      or not it names an index, unless that index marks no element (then
      it is skipped). */
  lemma NonNumericWaitFails<P>(b: Browser<P>, page: P, cmd: Json)
    requires cmd.JObject? && Get(cmd.fields, "action") == JString("wait")
    requires var value := Get(cmd.fields, "value");
             Truthy(value) && (ToInt(value).None? || ToInt(value).value >= SleepOverflow)
    requires var index := Get(cmd.fields, "index"); index == JNull || b.count(page, index) != Some(0)
    ensures RunCommand(b, page, cmd) == Returned((page, Failed))
  {
    var f := cmd.fields;
    assert Actions(Get(f, "action"), Get(f, "index"), Get(f, "value")) + [Sleep(Pacing)] == [BadDuration, Sleep(Pacing)];
  }

  /** `press_enter` without an index presses Enter on the page, and both
      `press_enter` and `click` wait for the network to go idle. */
  lemma PressAndClickWaitForLoad(index: Json, value: Json)
    ensures Actions(JString("press_enter"), JNull, value) ==
              [Do(KeyboardEnter), Do(WaitForNetworkIdle(LoadTimeout))]
    ensures index != JNull ==>
              (Actions(JString("press_enter"), index, value) ==
               [Do(PressEnter(index, ActionTimeout)), Do(WaitForNetworkIdle(LoadTimeout))])
    ensures Actions(JString("click"), index, value)[1] == Do(WaitForNetworkIdle(LoadTimeout))
  {
  }

  /** A call that raises fails its command only: the command ends there
      with the page the call left. */
  lemma RaisingCallFails<P>(b: Browser<P>, page: P, call: Call, rest: seq<Step>)
    requires b.perform(page, call).raised
    ensures RunSteps(b, page, [Do(call)] + rest) == (b.perform(page, call).page, true)
  {
  }

  lemma AllCompletedSnoc(outcomes: seq<Outcome>, last: Outcome)
    ensures AllCompleted(outcomes + [last]) <==> AllCompleted(outcomes) && last == Completed
  {
    assert (outcomes + [last])[|outcomes|] == last;
    assert forall i :: 0 <= i < |outcomes| ==> (outcomes + [last])[i] == outcomes[i];
  }

  /** The body of the loop in `execute_commands` for a dict command: the
      element check, then the steps and the pause, as `RunCommand` has it. */
  method RunDict<P>(b: Browser<P>, page: P, cmd: Json) returns (after: P, outcome: Outcome)
    requires cmd.JObject?
    ensures RunCommand(b, page, cmd) == Returned((after, outcome))
  {
    var action := Get(cmd.fields, "action");
    var index := Get(cmd.fields, "index");
    var value := Get(cmd.fields, "value");
    if index != JNull {
      var n := b.count(page, index);
      if n.None? {
        return page, Failed;
      }
      if n.value == 0 {
        return page, TargetMissing;
      }
    }
    var ran := RunSteps(b, page, Actions(action, index, value) + [Sleep(Pacing)]);
    after := ran.0;
    outcome := if ran.1 then Failed else Completed;
  }

  /** `execute_commands` as written: a `success` flag that any missing
      element or raised call clears, over a loop that never stops early
      except when a command is not a dict. It returns the flag, and the
      flag is set exactly when every command completed. */
  method ExecuteCommands<P>(b: Browser<P>, page: P, cmds: seq<Json>) returns (r: Result<(P, bool)>)
    ensures Execute(b, page, cmds).Raised? ==> r == Raised(GetAttributeError)
    ensures Execute(b, page, cmds).Returned? ==>
              r == Returned((Execute(b, page, cmds).value.page, AllCompleted(Execute(b, page, cmds).value.outcomes)))
  {
    var success := true;
    var current := page;
    ghost var outcomes: seq<Outcome> := [];
    var i := 0;
    while i < |cmds|
      invariant 0 <= i <= |cmds|
      invariant Execute(b, page, cmds[..i]) == Returned(Run(current, outcomes))
      invariant success <==> AllCompleted(outcomes)
    {
      var cmd := cmds[i];
      ExecuteSnoc(b, page, cmds, i, current, outcomes);
      if !cmd.JObject? {
        return Raised(GetAttributeError);
      }
      var after, outcome := RunDict(b, current, cmd);
      if outcome != Completed {
        success := false;
      }
      AllCompletedSnoc(outcomes, outcome);
      current, outcomes := after, outcomes + [outcome];
      i := i + 1;
    }
    assert cmds[..i] == cmds;
    return Returned((current, success));
  }
}

=== FILE: fence.dfy ===
/**
  Code-fence stripping, shared by the planner's reply handling and by
  `validate_data`: if the text contains three backticks, the first match of
  the regular expression ```(?:json)?\s*(.*?)\s*``` (searched with DOTALL)
  replaces the text by its captured group; otherwise the text is kept.

  `FenceBody` computes the match directly. `Matches` states, independently,
  when a slice of the text matches the pattern, and
  `FenceBodyIsPreferredMatch` proves that `FenceBody` returns the group of
  the match Python's backtracking engine selects: the leftmost start, then
  the optional `json` taken and the leading `\s*` as long as possible, then
  the lazy group as short as possible.
*/
module Fence {

  import opened Options
  import opened Text

  const Ticks: string := "```"

  /** Every character of `s[i..j]` is whitespace for Python's `\s`. */
  predicate SpacesIn(s: string, i: int, j: int) {
    0 <= i <= j <= |s| && forall k :: i <= k < j ==> IsPythonSpace(s[k])
  }

  /** Three backticks start at index `i` of `s`. */
  predicate TicksAt(s: string, i: int) {
    0 <= i && i + 3 <= |s| && s[i] == '`' && s[i + 1] == '`' && s[i + 2] == '`'
  }

  /** The word `json` starts at index `i` of `s`. */
  predicate JsonAt(s: string, i: int) {
    0 <= i && i + 4 <= |s| && s[i] == 'j' && s[i + 1] == 's' && s[i + 2] == 'o' && s[i + 3] == 'n'
  }

  /** Python's "```" in s. */
  predicate HasTicks(s: string) {
    exists i :: 0 <= i <= |s| && TicksAt(s, i)
  }

  /** The first fence at or after `from`. */
  function FindTicks(s: string, from: nat): (r: Option<nat>)
    ensures r.Some? ==> from <= r.value && TicksAt(s, r.value)
    ensures r.Some? ==> forall k :: from <= k < r.value ==> !TicksAt(s, k)
    ensures r.None? ==> forall k :: from <= k ==> !TicksAt(s, k)
    decreases |s| - from
  {
    if from + 3 > |s| then None
    else if TicksAt(s, from) then Some(from)
    else FindTicks(s, from + 1)
  }

  /** `s[i..j]` is matched by `(?:json)?\s*`. */
  predicate TagAndSpace(s: string, i: int, j: int) {
    || SpacesIn(s, i, j)
    || (JsonAt(s, i) && SpacesIn(s, i + 4, j))
  }

  /** `s[a..e]` is a match of the whole pattern whose group is `s[g..h]`. */
  predicate Matches(s: string, a: int, g: int, h: int, e: int) {
    && 0 <= a && a + 3 <= g <= h && h + 3 <= e <= |s|
    && TicksAt(s, a)
    && TagAndSpace(s, a + 3, g)
    && SpacesIn(s, h, e - 3)
    && TicksAt(s, e - 3)
  }

  /** Where the captured group may begin, given the opening fence at `open`:
      after the fence, and after `json` when it follows. */
  function BodyStart(s: string, open: nat): (r: nat)
    ensures r == (if JsonAt(s, open + 3) then open + 7 else open + 3)
  {
    if JsonAt(s, open + 3) then open + 7 else open + 3
  }

  /** The captured group of the first match of the fence pattern, or `None`
      when the pattern does not match anywhere. */
  function FenceBody(s: string): (r: Option<string>)
    ensures r.Some? ==> HasTicks(s) && |r.value| <= |s|
  {
    match FindTicks(s, 0)
    case None => None
    case Some(open) =>
      var start := BodyStart(s, open);
      match FindTicks(s, start)
      case None => None
      case Some(close) => Some(Strip(s[start..close]))
  }

  /** The fence handling at llm.py:88-92 and scraper.py:20-23. */
  function Unfence(s: string): (r: string)
    ensures |r| <= |s|
    ensures r != s ==> HasTicks(s) && FenceBody(s) == Some(r)
    // A text in which the pattern matches, with prose around the fence or
    // not, is replaced by the group; any other text is kept.
    ensures FenceBody(s).Some? ==> r == FenceBody(s).value
    ensures FenceBody(s).None? ==> r == s
  {
    if HasTicks(s) then
      match FenceBody(s)
      case Some(body) => body
      case None => s
    else
      s
  }

  // ---------------------------------------------------------------------
  // FenceBody is the regex engine's match

  /** Where `Strip(s[i..j])` lies inside `s`. */
  lemma StripBounds(s: string, i: int, j: int) returns (g: int, h: int)
    requires 0 <= i <= j <= |s|
    ensures i <= g <= h <= j && Strip(s[i..j]) == s[g..h]
    ensures SpacesIn(s, i, g) && SpacesIn(s, h, j)
    ensures g < j ==> !IsPythonSpace(s[g])
    ensures h > g ==> !IsPythonSpace(s[h - 1])
  {
    var u := s[i..j];
    var a := SkipFrom(u, IsPythonSpace, 0);
    var b := SkipBack(u, IsPythonSpace, a, |u|);
    g, h := i + a, i + b;
    StripOfSlice(s, i, j);
    SpacesAroundStrip(s, i, j);
    EndsOfStrip(s, i, j);
  }

  /** `Strip(s[i..j])` is the slice of `s` between the two scans of
      `s[i..j]`. */
  lemma StripOfSlice(s: string, i: int, j: int)
    requires 0 <= i <= j <= |s|
    ensures var u := s[i..j];
            var a := SkipFrom(u, IsPythonSpace, 0);
            var b := SkipBack(u, IsPythonSpace, a, |u|);
            Strip(u) == s[i + a..i + b]
  {
    var u := s[i..j];
    var a := SkipFrom(u, IsPythonSpace, 0);
    StripIs(u);
    SliceOfSlice(s, i, j, a, SkipBack(u, IsPythonSpace, a, |u|));
  }

  /** What the scans of `s[i..j]` skip is whitespace of `s`. */
  lemma SpacesAroundStrip(s: string, i: int, j: int)
    requires 0 <= i <= j <= |s|
    ensures var u := s[i..j];
            var a := SkipFrom(u, IsPythonSpace, 0);
            var b := SkipBack(u, IsPythonSpace, a, |u|);
            SpacesIn(s, i, i + a) && SpacesIn(s, i + b, j)
  {
    var u := s[i..j];
    var a := SkipFrom(u, IsPythonSpace, 0);
    var b := SkipBack(u, IsPythonSpace, a, |u|);
    SpacesOfSlice(s, i, j, 0, a);
    SpacesOfSlice(s, i, j, b, |u|);
  }

  /** Where the scans of `s[i..j]` stop, `s` holds no whitespace. */
  lemma EndsOfStrip(s: string, i: int, j: int)
    requires 0 <= i <= j <= |s|
    ensures var u := s[i..j];
            var a := SkipFrom(u, IsPythonSpace, 0);
            var b := SkipBack(u, IsPythonSpace, a, |u|);
            && (i + a < j ==> !IsPythonSpace(s[i + a]))
            && (i + b > i + a ==> !IsPythonSpace(s[i + b - 1]))
  {
    var u := s[i..j];
    var a := SkipFrom(u, IsPythonSpace, 0);
    var b := SkipBack(u, IsPythonSpace, a, |u|);
    if a < |u| {
      assert s[i + a] == u[a];
    }
    if b > a {
      assert s[i + b - 1] == u[b - 1];
    }
  }

  /** Whitespace in a slice is whitespace in the string it was cut from. */
  lemma SpacesOfSlice(s: string, i: int, j: int, x: int, y: int)
    requires 0 <= i <= j <= |s| && 0 <= x <= y <= j - i
    requires forall k :: x <= k < y ==> IsPythonSpace(s[i..j][k])
    ensures SpacesIn(s, i + x, i + y)
  {
    forall k | i + x <= k < i + y
      ensures IsPythonSpace(s[k])
    {
      assert s[k] == s[i..j][k - i];
    }
  }

  /** The match `FenceBody` selects, with all its positions. */
  lemma FenceBodyMatch(s: string) returns (a: nat, g: nat, h: nat, e: nat)
    requires FenceBody(s).Some?
    ensures Matches(s, a, g, h, e) && FenceBody(s) == Some(s[g..h])
    ensures FindTicks(s, 0) == Some(a)
    ensures FindTicks(s, BodyStart(s, a)) == Some(e - 3)
    ensures SpacesIn(s, BodyStart(s, a), g)
    ensures g < e - 3 ==> !IsPythonSpace(s[g])
    ensures h > g ==> !IsPythonSpace(s[h - 1])
  {
    a := FindTicks(s, 0).value;
    var start := BodyStart(s, a);
    var close := FindTicks(s, start).value;
    var g', h' := StripBounds(s, start, close);
    g, h, e := g', h', close + 3;
  }

  /** Whenever the pattern matches somewhere, `FenceBody` finds a match. */
  lemma MatchImpliesFenceBody(s: string, a: int, g: int, h: int, e: int)
    requires Matches(s, a, g, h, e)
    ensures FenceBody(s).Some?
  {
    var open := FindTicks(s, 0).value;
    var start := BodyStart(s, open);
    // The closing fence of the match cannot start inside a `json` tag.
    assert s[e - 3] == '`';
    assert FindTicks(s, start).Some?;
  }

  /** No match at the same start begins its group later than `g`: the
      spaces the other match skips run into the group's first character or
      into the closing fence. */
  lemma GroupStartIsGreedy(s: string, a: nat, g: nat, h: nat, e: nat, g': int, h': int, e': int)
    requires Matches(s, a, g, h, e) && Matches(s, a, g', h', e')
    requires SpacesIn(s, BodyStart(s, a), g)
    requires g < e - 3 ==> !IsPythonSpace(s[g])
    ensures g' <= g
  {
    assert s[e - 3] == '`';
  }

  /** No match with the same group start has a shorter group: its closing
      fence is no earlier, so the spaces before it would cover the group's
      last character. */
  lemma GroupIsLazy(s: string, a: nat, g: nat, h: nat, e: nat, h': int, e': int)
    requires Matches(s, a, g, h, e) && Matches(s, a, g, h', e')
    requires FindTicks(s, BodyStart(s, a)) == Some(e - 3)
    requires SpacesIn(s, BodyStart(s, a), g)
    requires h > g ==> !IsPythonSpace(s[h - 1])
    ensures h <= h'
  {
  }

  /** A match exists exactly when `FenceBody` finds one, and `FenceBody`
      returns the group of the match Python selects: no match starts
      earlier; among matches at the same start none has a later group start
      (optional `json` and `\s*` are greedy); among those with the same group
      start none has a shorter group (`.*?` is lazy). */
  lemma FenceBodyIsPreferredMatch(s: string)
    ensures FenceBody(s).None? <==>
              forall a, g, h, e :: !Matches(s, a, g, h, e)
    ensures FenceBody(s).Some? ==>
              exists a, g, h, e ::
                && Matches(s, a, g, h, e)
                && FenceBody(s).value == s[g..h]
                && (forall a', g', h', e' :: Matches(s, a', g', h', e') ==> a <= a')
                && (forall g', h', e' :: Matches(s, a, g', h', e') ==> g' <= g)
                && (forall h', e' :: Matches(s, a, g, h', e') ==> h <= h')
  {
    if FenceBody(s).Some? {
      var a, g, h, e := FenceBodyMatch(s);
      forall a', g', h', e' | Matches(s, a', g', h', e')
        ensures a <= a'
      {
      }
      forall g', h', e' | Matches(s, a, g', h', e')
        ensures g' <= g
      {
        GroupStartIsGreedy(s, a, g, h, e, g', h', e');
      }
      forall h', e' | Matches(s, a, g, h', e')
        ensures h <= h'
      {
        GroupIsLazy(s, a, g, h, e, h', e');
      }
    } else {
      forall a, g, h, e
        ensures !Matches(s, a, g, h, e)
      {
        if Matches(s, a, g, h, e) {
          MatchImpliesFenceBody(s, a, g, h, e);
        }
      }
    }
  }

  // ---------------------------------------------------------------------
  // Consequences

  /** Text without three backticks passes through unchanged. */
  lemma UnfenceWithoutTicks(s: string)
    requires !HasTicks(s)
    ensures Unfence(s) == s
  {
  }

  /** When no two fences in the text are disjoint there is no closing
      fence: the pattern fails and the text passes through unchanged. */
  lemma UnfenceUnclosed(s: string)
    requires forall i, j :: TicksAt(s, i) && TicksAt(s, j) ==> j < i + 3
    ensures FenceBody(s).None?
    ensures Unfence(s) == s
  {
    match FindTicks(s, 0)
    case None =>
    case Some(open) =>
      assert FindTicks(s, BodyStart(s, open)).None?;
  }

  /** A fence opened and closed on lines of their own around `c` yields
      exactly `c`, whether the opening fence carries `json` or nothing. */
  lemma UnfenceRoundTrip(tag: string, c: string)
    requires tag == "json" || tag == ""
    requires !HasTicks(c)
    requires |c| > 0 ==> !IsPythonSpace(c[0]) && !IsPythonSpace(c[|c| - 1])
    ensures Unfence(Ticks + tag + "\n" + c + "\n" + Ticks) == c
  {
    var s := Ticks + tag + "\n" + c + "\n" + Ticks;
    var start := 3 + |tag|;
    OpeningFence(s, tag, c);
    ClosingFenceAfterLine(s, Ticks + tag + "\n", c, Ticks);
    FencedLine(s, tag, c);
    LineStripped(c);
  }

  /** The opening fence of a fenced block is the first, and the group may
      begin right after its tag. */
  lemma OpeningFence(s: string, tag: string, c: string)
    requires tag == "json" || tag == ""
    requires s == Ticks + tag + "\n" + c + "\n" + Ticks
    ensures HasTicks(s) && FindTicks(s, 0) == Some(0) && BodyStart(s, 0) == 3 + |tag|
  {
    assert TicksAt(s, 0);
    assert s[3] == (if tag == "" then '\n' else 'j');
  }

  /** Between the opening fence's tag and the closing fence lies `c` on a
      line of its own. */
  lemma FencedLine(s: string, tag: string, c: string)
    requires s == Ticks + tag + "\n" + c + "\n" + Ticks
    ensures 3 + |tag| + 2 + |c| <= |s|
    ensures s[3 + |tag|..3 + |tag| + 2 + |c|] == "\n" + c + "\n"
  {
  }

  /** A line without surrounding whitespace strips to itself. */
  lemma LineStripped(c: string)
    requires |c| > 0 ==> !IsPythonSpace(c[0]) && !IsPythonSpace(c[|c| - 1])
    ensures Strip("\n" + c + "\n") == c
  {
    assert AllSatisfy("\n", IsPythonSpace);
    TrimPadded("\n", c, "\n", IsPythonSpace);
  }

  /** `FindTicks` returns the first fence at or after `from`. */
  lemma FindTicksIs(s: string, from: nat, x: nat)
    requires from <= x && TicksAt(s, x)
    requires forall k :: from <= k < x ==> !TicksAt(s, k)
    ensures FindTicks(s, from) == Some(x)
  {
    var r := FindTicks(s, from);
    assert r.Some?;
    assert !(r.value < x);
    assert !(x < r.value);
  }

  /** No fence starts in a line holding `c` between two newlines, the
      first at `line - 1` and the second at `line + |c|`. */
  lemma NoTicksAroundLine(s: string, line: nat, c: string)
    requires !HasTicks(c)
    requires 0 < line && line + |c| < |s|
    requires s[line - 1] == '\n' && s[line + |c|] == '\n'
    requires forall m :: 0 <= m < |c| ==> s[line + m] == c[m]
    ensures forall k :: line - 1 <= k < line + |c| + 1 ==> !TicksAt(s, k)
  {
    forall k | line <= k && k + 3 <= line + |c|
      ensures !TicksAt(s, k)
    {
      var m := k - line;
      assert s[k] == c[m] && s[k + 1] == c[m + 1] && s[k + 2] == c[m + 2];
      assert !TicksAt(c, m);
    }
  }

  /** The line of `c` inside `p + c + "\n" + t`, when `p` ends a line and
      `t` opens with a fence: what `FirstFenceAfterLine` needs. */
  lemma IndexLine(p: string, c: string, t: string)
    requires |p| > 0 && p[|p| - 1] == '\n'
    requires TicksAt(t, 0)
    ensures var s := p + c + "\n" + t;
            && TicksAt(s, |p| + |c| + 1)
            && s[|p| - 1] == '\n' && s[|p| + |c|] == '\n'
            && (forall m :: 0 <= m < |c| ==> s[|p| + m] == c[m])
  {
    var s := p + c + "\n" + t;
    assert s[|p| - 1] == p[|p| - 1];
    assert s[|p| + |c| + 1] == t[0] && s[|p| + |c| + 2] == t[1] && s[|p| + |c| + 3] == t[2];
  }

  /** The first fence from `line - 1` on is the one that opens the line
      after `c`. */
  lemma FirstFenceAfterLine(s: string, line: nat, c: string)
    requires !HasTicks(c)
    requires 0 < line && TicksAt(s, line + |c| + 1)
    requires s[line - 1] == '\n' && s[line + |c|] == '\n'
    requires forall m :: 0 <= m < |c| ==> s[line + m] == c[m]
    ensures var r := FindTicks(s, line - 1); r.Some? && r.value == line + |c| + 1
  {
    NoTicksAroundLine(s, line, c);
    FindTicksIs(s, line - 1, line + |c| + 1);
  }

  /** After a line break, a line holding `c` and a line opening with a
      fence, the first fence is the one on the next line. */
  lemma ClosingFenceAfterLine(s: string, p: string, c: string, t: string)
    requires s == p + c + "\n" + t
    requires |p| > 0 && p[|p| - 1] == '\n'
    requires TicksAt(t, 0)
    requires !HasTicks(c)
    ensures var r := FindTicks(s, |p| - 1); r.Some? && r.value == |p| + |c| + 1
  {
    IndexLine(p, c, t);
    FirstFenceAfterLine(s, |p|, c);
  }
}

=== FILE: markdown.dfy ===
/**
  Page-to-markdown cleanup (`page_to_markdown`, in both copies of
  html_to_markdown.py, which do the same thing). The HTML loses its
  `<script>`, `<style>`, `<nav>` and `<footer>` blocks, one regular
  expression `<tag[^>]*>.*?</tag>` (dot matches newline, case ignored) per
  tag, in that order; markdownify turns the rest into markdown; every run of
  three or more newlines becomes two; the result is stripped.

  markdownify is a parameter. The regular expressions are modelled by what
  they match, with a lemma per expression relating the scan to an
  independent description of a match.
*/
module Markdown {

  import opened Options
  import opened Text

  /** The tags whose blocks are removed, in the order they are removed. */
  const NoiseTags: seq<string> := ["script", "style", "nav", "footer"]

  // ---------------------------------------------------------------------
  // Case-insensitive literals

  /** Text character `c` matches pattern character `p` when case is
      ignored: for a lower-case ASCII letter its upper-case form, and the
      extra Unicode equivalents Python's `re` uses (long s for `s`, dotted
      and dotless I for `i`, the Kelvin sign for `k`). */
  predicate SameChar(c: char, p: char) {
    if 'a' <= p <= 'z' then
      || c == p
      || c as int == p as int - 32
      || (p == 's' && c == 'ſ')
      || (p == 'i' && (c == 'İ' || c == 'ı'))
      || (p == 'k' && c == 'K')
    else
      c == p
  }

  /** The literal `w` matches `s` at position `i`, case ignored. */
  predicate WordAt(s: string, i: nat, w: string) {
    && i + |w| <= |s|
    && forall k :: 0 <= k < |w| ==> SameChar(s[i + k], w[k])
  }

  function Opening(tag: string): string { "<" + tag }

  function Closing(tag: string): string { "</" + tag + ">" }

  /** The first `>` at or after `from`. */
  function FirstAngle(s: string, from: nat): (r: Option<nat>)
    ensures r.Some? ==> from <= r.value < |s| && s[r.value] == '>'
    ensures r.Some? ==> forall m :: from <= m < r.value ==> s[m] != '>'
    ensures r.None? ==> forall m :: from <= m < |s| ==> s[m] != '>'
    decreases |s| - from
  {
    if from >= |s| then None
    else if s[from] == '>' then Some(from)
    else FirstAngle(s, from + 1)
  }

  /** The first position at or after `from` where `w` matches. */
  function FirstWord(s: string, from: nat, w: string): (r: Option<nat>)
    ensures r.Some? ==> from <= r.value && WordAt(s, r.value, w)
    ensures r.Some? ==> forall m :: from <= m < r.value ==> !WordAt(s, m, w)
    ensures r.None? ==> forall m :: from <= m ==> !WordAt(s, m, w)
    decreases |s| - from
  {
    if from + |w| > |s| then None
    else if WordAt(s, from, w) then Some(from)
    else FirstWord(s, from + 1, w)
  }

  // ---------------------------------------------------------------------
  // One block expression

  /** The length of the match of `<tag[^>]*>.*?</tag>` at the start of
      `s`, if there is one. `[^>]*` cannot pass a `>`, so the `>` after the
      opening tag is the first one; the lazy `.*?` stops at the first
      closing tag after it. */
  function BlockLength(s: string, tag: string): (r: Option<nat>)
    ensures r.Some? ==> |Opening(tag)| < r.value <= |s|
  {
    if !WordAt(s, 0, Opening(tag)) then None
    else
      match FirstAngle(s, |Opening(tag)|)
      case None => None
      case Some(j) =>
        match FirstWord(s, j + 1, Closing(tag))
        case None => None
        case Some(k) => Some(k + |Closing(tag)|)
  }

  /** `s` starts with a match of `<tag[^>]*>.*?</tag>` in which the `>`
      closing the opening tag is at `j` and the closing tag starts at `k`,
      with the text between them matched by `.*?`. */
  predicate MatchSpan(s: string, tag: string, j: nat, k: nat) {
    && WordAt(s, 0, Opening(tag))
    && |Opening(tag)| <= j < k
    && WordAt(s, k, Closing(tag))
    && s[j] == '>'
    && (forall m :: |Opening(tag)| <= m < j ==> s[m] != '>')
  }

  /** The scan for `>` stops at the first one. */
  lemma {:induction false} FirstAngleIs(s: string, from: nat, j: nat)
    requires from <= j < |s| && s[j] == '>'
    requires forall m :: from <= m < j ==> s[m] != '>'
    ensures FirstAngle(s, from) == Some(j)
    decreases j - from
  {
    if from < j {
      FirstAngleIs(s, from + 1, j);
    }
  }

  /** The scan for `w` stops at the latest at a position where `w` matches. */
  lemma {:induction false} FirstWordAtMost(s: string, from: nat, w: string, k: nat)
    requires from <= k && WordAt(s, k, w)
    ensures FirstWord(s, from, w).Some? && FirstWord(s, from, w).value <= k
    decreases k - from
  {
    if from < k && !WordAt(s, from, w) {
      FirstWordAtMost(s, from + 1, w, k);
    }
  }

  /** The scan for `w` finds the first position where it matches. */
  lemma FirstWordIs(s: string, from: nat, w: string, k: nat)
    requires from <= k && WordAt(s, k, w)
    requires forall m :: from <= m < k ==> !WordAt(s, m, w)
    ensures FirstWord(s, from, w) == Some(k)
  {
    FirstWordAtMost(s, from, w, k);
  }

  /** `BlockLength` finds a match exactly when the expression has one at
      the start of `s`, and it finds the shortest. */
  lemma BlockLengthIsLazyMatch(s: string, tag: string)
    ensures forall j: nat, k: nat :: MatchSpan(s, tag, j, k) ==>
              BlockLength(s, tag).Some? && BlockLength(s, tag).value <= k + |Closing(tag)|
    ensures BlockLength(s, tag).Some? ==>
              exists j: nat, k: nat :: MatchSpan(s, tag, j, k) && BlockLength(s, tag).value == k + |Closing(tag)|
  {
    forall j: nat, k: nat | MatchSpan(s, tag, j, k)
      ensures BlockLength(s, tag).Some? && BlockLength(s, tag).value <= k + |Closing(tag)|
    {
      FirstAngleIs(s, |Opening(tag)|, j);
      FirstWordAtMost(s, j + 1, Closing(tag), k);
    }
    if BlockLength(s, tag).Some? {
      var j := FirstAngle(s, |Opening(tag)|).value;
      var k := FirstWord(s, j + 1, Closing(tag)).value;
      assert MatchSpan(s, tag, j, k);
    }
  }

  /** The match that ends at the first closing tag after the first `>`. */
  lemma BlockLengthAt(s: string, tag: string, j: nat, k: nat)
    requires MatchSpan(s, tag, j, k)
    requires forall m :: j + 1 <= m < k ==> !WordAt(s, m, Closing(tag))
    ensures var r := BlockLength(s, tag); r.Some? && r.value == k + |Closing(tag)|
  {
    FirstAngleIs(s, |Opening(tag)|, j);
    FirstWordIs(s, j + 1, Closing(tag), k);
  }

  /** One `re.sub(r'<tag[^>]*>.*?</tag>', '', s, flags=re.DOTALL | re.IGNORECASE)`:
      scanning left to right, a match is dropped and the scan resumes after
      it; elsewhere a character is kept and the scan moves on by one. */
  function RemoveBlocks(s: string, tag: string): (r: string)
    ensures |r| <= |s|
    decreases |s|
  {
    if |s| == 0 then ""
    else
      match BlockLength(s, tag)
      case Some(n) => RemoveBlocks(s[n..], tag)
      case None => [s[0]] + RemoveBlocks(s[1..], tag)
  }

  /** A match of `w` in the tail of `s` is a match in `s`. */
  lemma WordAtTail(s: string, m: nat, w: string)
    requires |s| > 0
    ensures WordAt(s[1..], m, w) ==> WordAt(s, m + 1, w)
  {
    if WordAt(s[1..], m, w) {
      forall i | 0 <= i < |w| ensures SameChar(s[m + 1 + i], w[i]) {
        assert s[1..][m + i] == s[m + 1 + i];
      }
    }
  }

  /** A match needs a closing tag: text without one is left as it is. */
  lemma {:induction false} NoClosingTagUnchanged(s: string, tag: string)
    requires forall m: nat :: !WordAt(s, m, Closing(tag))
    ensures RemoveBlocks(s, tag) == s
    decreases |s|
  {
    if |s| > 0 {
      var c := Closing(tag);
      assert BlockLength(s, tag).None?;
      forall m: nat ensures !WordAt(s[1..], m, c) {
        WordAtTail(s, m, c);
      }
      NoClosingTagUnchanged(s[1..], tag);
    }
  }

  /** The substitution changes the text exactly when the expression
      matches at some position of it: an opening tag whose block is never
      closed leaves the text alone, even after an earlier closing tag. */
  lemma RemoveBlocksUnchangedIff(s: string, tag: string)
    ensures RemoveBlocks(s, tag) == s <==> forall m :: 0 <= m < |s| ==> BlockLength(s[m..], tag).None?
  {
    if forall m :: 0 <= m < |s| ==> BlockLength(s[m..], tag).None? {
      NoBlockUnchanged(s, tag);
    } else {
      var m :| 0 <= m < |s| && BlockLength(s[m..], tag).Some?;
      BlockShortens(s, tag, m);
    }
  }

  /** Without a match anywhere, every character is kept. */
  lemma {:induction false} NoBlockUnchanged(s: string, tag: string)
    requires forall m :: 0 <= m < |s| ==> BlockLength(s[m..], tag).None?
    ensures RemoveBlocks(s, tag) == s
    decreases |s|
  {
    if |s| > 0 {
      assert s[0..] == s;
      forall m | 0 <= m < |s| - 1
        ensures BlockLength(s[1..][m..], tag).None?
      {
        assert s[1..][m..] == s[m + 1..];
      }
      NoBlockUnchanged(s[1..], tag);
      assert s == [s[0]] + s[1..];
    }
  }

  /** A match at `m` is removed unless an earlier match swallows it, so the
      text gets shorter. */
  lemma {:induction false} BlockShortens(s: string, tag: string, m: nat)
    requires m < |s| && BlockLength(s[m..], tag).Some?
    ensures |RemoveBlocks(s, tag)| < |s|
    decreases m
  {
    if m == 0 {
      assert s[0..] == s;
    } else if BlockLength(s, tag).None? {
      assert s[1..][m - 1..] == s[m..];
      BlockShortens(s[1..], tag, m - 1);
    }
  }

  /** Text before the first `<` is kept as it is. */
  lemma {:induction false} PlainPrefixKept(p: string, r: string, tag: string)
    requires '<' !in p
    ensures RemoveBlocks(p + r, tag) == p + RemoveBlocks(r, tag)
    decreases |p|
  {
    if |p| == 0 {
      assert p + r == r;
    } else {
      var s := p + r;
      assert s[0] == p[0];
      CharKept(s, tag);
      assert s[1..] == p[1..] + r;
      PlainPrefixKept(p[1..], r, tag);
      ConsAppend(p, RemoveBlocks(r, tag));
    }
  }

  lemma ConsAppend(p: string, t: string)
    requires |p| > 0
    ensures [p[0]] + (p[1..] + t) == p + t
  {
    assert p == [p[0]] + p[1..];
  }

  /** A character other than `<` cannot start a match, so it is kept. */
  lemma CharKept(s: string, tag: string)
    requires |s| > 0 && s[0] != '<'
    ensures RemoveBlocks(s, tag) == [s[0]] + RemoveBlocks(s[1..], tag)
  {
    assert !SameChar(s[0], Opening(tag)[0]);
    assert BlockLength(s, tag).None?;
  }

  /** A literal that occurs verbatim matches. */
  lemma WordAtSlice(s: string, i: nat, w: string)
    requires i + |w| <= |s| && s[i..i + |w|] == w
    ensures WordAt(s, i, w)
  {
    forall k | 0 <= k < |w| ensures SameChar(s[i + k], w[k]) {
      assert s[i..i + |w|][k] == s[i + k];
    }
  }

  /** An element `<tag attributes>content</tag>` as the page writes it. */
  function Block(tag: string, attributes: string, content: string): string {
    Opening(tag) + attributes + ">" + content + Closing(tag)
  }

  /** Where the parts of a block sit in the text. */
  lemma BlockSlices(tag: string, attributes: string, content: string, rest: string)
    ensures var s := Block(tag, attributes, content) + rest;
            var j := |Opening(tag)| + |attributes|;
            var k := j + 1 + |content|;
            && k + |Closing(tag)| == |Block(tag, attributes, content)|
            && s[..|Opening(tag)|] == Opening(tag)
            && s[|Opening(tag)|..j] == attributes
            && s[j] == '>'
            && s[j + 1..k] == content
            && s[k..k + |Closing(tag)|] == Closing(tag)
  {
  }

  /** In a block whose attributes have no `>` and whose content has no
      `<`, the `>` ends the attributes and the closing tag is the first
      one after it. */
  lemma BlockSpan(tag: string, attributes: string, content: string, rest: string)
    requires '>' !in attributes && '<' !in content
    ensures var s := Block(tag, attributes, content) + rest;
            var j := |Opening(tag)| + |attributes|;
            var k := j + 1 + |content|;
            && MatchSpan(s, tag, j, k)
            && forall m :: j + 1 <= m < k ==> !WordAt(s, m, Closing(tag))
  {
    var o := Opening(tag);
    var c := Closing(tag);
    var s := Block(tag, attributes, content) + rest;
    var j := |o| + |attributes|;
    var k := j + 1 + |content|;
    BlockSlices(tag, attributes, content, rest);
    WordAtSlice(s, 0, o);
    WordAtSlice(s, k, c);
    forall m | |o| <= m < j ensures s[m] != '>' {
      assert s[m] == s[|o|..j][m - |o|];
    }
    forall m | j + 1 <= m < k ensures !WordAt(s, m, c) {
      assert s[m] == s[j + 1..k][m - j - 1];
      assert c[0] == '<';
    }
  }

  /** The match of such a block ends with the block. */
  lemma BlockLengthOfBlock(tag: string, attributes: string, content: string, rest: string)
    requires '>' !in attributes && '<' !in content
    ensures var r := BlockLength(Block(tag, attributes, content) + rest, tag);
            r.Some? && r.value == |Block(tag, attributes, content)|
  {
    var j := |Opening(tag)| + |attributes|;
    var k := j + 1 + |content|;
    BlockSlices(tag, attributes, content, rest);
    BlockSpan(tag, attributes, content, rest);
    BlockLengthAt(Block(tag, attributes, content) + rest, tag, j, k);
  }

  /** A block is removed whole, with what the page has around it kept:
      `<script type="x">code</script>` disappears from the text. */
  lemma BlockRemoved(p: string, tag: string, attributes: string, content: string, rest: string)
    requires '<' !in p && '>' !in attributes && '<' !in content
    ensures RemoveBlocks(p + Block(tag, attributes, content) + rest, tag) == p + RemoveBlocks(rest, tag)
  {
    var block := Block(tag, attributes, content);
    var s := block + rest;
    BlockLengthOfBlock(tag, attributes, content, rest);
    MatchDropped(s, tag);
    assert s[|block|..] == rest;
    PlainPrefixKept(p, s, tag);
    assert p + block + rest == p + s;
  }

  lemma MatchDropped(s: string, tag: string)
    requires BlockLength(s, tag).Some?
    ensures RemoveBlocks(s, tag) == RemoveBlocks(s[BlockLength(s, tag).value..], tag)
  {
  }

  // ---------------------------------------------------------------------
  // The four block expressions

  /** The four substitutions, one tag after the other. */
  function RemoveAll(s: string, tags: seq<string>): (r: string)
    ensures |r| <= |s|
    decreases |tags|
  {
    if |tags| == 0 then s else RemoveAll(RemoveBlocks(s, tags[0]), tags[1..])
  }

  /** The HTML as markdownify receives it. */
  function StripNoise(html: string): string {
    RemoveAll(html, NoiseTags)
  }

  lemma ClosingNeedsAngle(s: string, m: nat, tag: string)
    ensures WordAt(s, m, Closing(tag)) ==> '<' in s
  {
    if WordAt(s, m, Closing(tag)) {
      assert SameChar(s[m + 0], Closing(tag)[0]);
    }
  }

  /** Markup-free text goes through unchanged. */
  lemma {:induction false} NoMarkupUnchanged(s: string, tags: seq<string>)
    requires '<' !in s
    ensures RemoveAll(s, tags) == s
    decreases |tags|
  {
    if |tags| > 0 {
      forall m: nat ensures !WordAt(s, m, Closing(tags[0])) {
        ClosingNeedsAngle(s, m, tags[0]);
      }
      NoClosingTagUnchanged(s, tags[0]);
      NoMarkupUnchanged(s, tags[1..]);
    }
  }

  // ---------------------------------------------------------------------
  // Blank lines

  /** The number of newlines `s` starts with. */
  function NewlineRun(s: string): (n: nat)
    ensures n <= |s|
    ensures forall i :: 0 <= i < n ==> s[i] == '\n'
    ensures n < |s| ==> s[n] != '\n'
  {
    if |s| > 0 && s[0] == '\n' then 1 + NewlineRun(s[1..]) else 0
  }

  /** Three newlines in a row at `i`. */
  predicate TripleAt(s: string, i: int) {
    0 <= i && i + 3 <= |s| && s[i] == '\n' && s[i + 1] == '\n' && s[i + 2] == '\n'
  }

  /** No run of three or more newlines. */
  predicate NoTriple(s: string) {
    forall i :: 0 <= i <= |s| ==> !TripleAt(s, i)
  }

  /** `re.sub(r'\n{3,}', '\n\n', s)`: scanning left to right, a run of
      three or more newlines becomes two; the greedy `{3,}` takes the whole
      run. */
  function Collapse(s: string): (r: string)
    ensures |r| <= |s|
    ensures NewlineRun(r) == if NewlineRun(s) >= 3 then 2 else NewlineRun(s)
    decreases |s|
  {
    if |s| == 0 then ""
    else
      var n := NewlineRun(s);
      if n >= 3 then
        var rest := Collapse(s[n..]);
        assert NewlineRun(['\n'] + rest) == 1;
        ['\n'] + (['\n'] + rest)
      else
        var rest := Collapse(s[1..]);
        assert ([s[0]] + rest)[1..] == rest;
        [s[0]] + rest
  }

  lemma NoTriplePrepend(c: char, r: string)
    requires NoTriple(r) && (c != '\n' || NewlineRun(r) < 2)
    ensures NoTriple([c] + r)
  {
    forall i ensures !TripleAt([c] + r, i) {
      if i > 0 && TripleAt([c] + r, i) {
        assert TripleAt(r, i - 1);
      }
    }
  }

  /** After the substitution no run of three newlines is left. */
  lemma {:induction false} CollapseHasNoTriple(s: string)
    ensures NoTriple(Collapse(s))
    decreases |s|
  {
    if |s| > 0 {
      var n := NewlineRun(s);
      if n >= 3 {
        var rest := Collapse(s[n..]);
        CollapseHasNoTriple(s[n..]);
        NoTriplePrepend('\n', rest);
        NoTriplePrepend('\n', ['\n'] + rest);
      } else {
        CollapseHasNoTriple(s[1..]);
        NoTriplePrepend(s[0], Collapse(s[1..]));
      }
    }
  }

  /** The substitution changes a text exactly when the text has a run of
      three newlines. */
  lemma {:induction false} CollapseUnchangedIff(s: string)
    ensures Collapse(s) == s <==> NoTriple(s)
    decreases |s|
  {
    CollapseHasNoTriple(s);
    if NoTriple(s) && |s| > 0 {
      assert NewlineRun(s) < 3 by {
        if NewlineRun(s) >= 3 {
          assert TripleAt(s, 0);
        }
      }
      assert NoTriple(s[1..]) by {
        forall i ensures !TripleAt(s[1..], i) {
          if TripleAt(s[1..], i) {
            assert TripleAt(s, i + 1);
          }
        }
      }
      CollapseUnchangedIff(s[1..]);
      assert s == [s[0]] + s[1..];
    }
  }

  /** A run of three or more newlines at the front becomes two. */
  lemma CollapseLong(s: string)
    requires NewlineRun(s) >= 3
    ensures Collapse(s) == "\n\n" + Collapse(s[NewlineRun(s)..])
  {
    var rest := Collapse(s[NewlineRun(s)..]);
    assert Collapse(s) == ['\n'] + (['\n'] + rest);
    assert ['\n'] + (['\n'] + rest) == "\n\n" + rest;
  }

  /** Any other first character is kept. */
  lemma CollapseShort(s: string)
    requires |s| > 0 && NewlineRun(s) < 3
    ensures Collapse(s) == [s[0]] + Collapse(s[1..])
  {
  }

  /** A run of newlines followed by something else is exactly as long as
      the run. */
  lemma {:induction false} NewlineRunOfRun(run: string, q: string)
    requires forall i :: 0 <= i < |run| ==> run[i] == '\n'
    requires |q| == 0 || q[0] != '\n'
    ensures NewlineRun(run + q) == |run|
    decreases |run|
  {
    if |run| > 0 {
      assert (run + q)[1..] == run[1..] + q;
      NewlineRunOfRun(run[1..], q);
    }
  }

  /** A text that ends in something other than a newline holds every run
      that starts in it. */
  lemma {:induction false} NewlineRunWithin(p: string, x: string)
    requires |p| > 0 && p[|p| - 1] != '\n'
    ensures NewlineRun(p + x) == NewlineRun(p)
    decreases |p|
  {
    if p[0] == '\n' {
      assert (p + x)[1..] == p[1..] + x;
      NewlineRunWithin(p[1..], x);
    }
  }

  /** The substitution works piecewise across a boundary that no run of
      newlines straddles. */
  lemma {:induction false} CollapseSplits(p: string, x: string)
    requires |p| == 0 || p[|p| - 1] != '\n'
    ensures Collapse(p + x) == Collapse(p) + Collapse(x)
    decreases |p|
  {
    if |p| == 0 {
      assert p + x == x;
    } else {
      NewlineRunWithin(p, x);
      var n := NewlineRun(p);
      var k := if n >= 3 then n else 1;
      var head := if n >= 3 then "\n\n" else [p[0]];
      assert (p + x)[k..] == p[k..] + x;
      if n >= 3 {
        CollapseLong(p + x);
        CollapseLong(p);
      } else {
        CollapseShort(p + x);
        CollapseShort(p);
      }
      CollapseSplits(p[k..], x);
      AppendAssociates(head, Collapse(p[k..]), Collapse(x));
    }
  }

  /** A whole run of three or more newlines between two other characters
      becomes exactly two, and the text on either side is treated on its
      own: `"a\n\n\nb"` becomes `"a\n\nb"`. */
  lemma CollapseRun(p: string, run: string, q: string)
    requires |p| == 0 || p[|p| - 1] != '\n'
    requires |run| >= 3 && forall i :: 0 <= i < |run| ==> run[i] == '\n'
    requires |q| == 0 || q[0] != '\n'
    ensures Collapse(p + run + q) == Collapse(p) + "\n\n" + Collapse(q)
  {
    var c := run + q;
    assert Collapse(c) == "\n\n" + Collapse(q) by {
      NewlineRunOfRun(run, q);
      CollapseLong(c);
      assert c[|run|..] == q;
    }
    assert Collapse(p + run + q) == Collapse(p) + Collapse(c) by {
      assert p + run + q == p + c;
      CollapseSplits(p, c);
    }
    AppendAssociates(Collapse(p), "\n\n", Collapse(q));
  }

  lemma CollapseIdempotent(s: string)
    ensures Collapse(Collapse(s)) == Collapse(s)
  {
    CollapseHasNoTriple(s);
    CollapseUnchangedIff(Collapse(s));
  }

  /** `s` without its newlines. */
  function DropNewlines(s: string): (r: string)
    ensures '\n' !in r
  {
    if |s| == 0 then ""
    else if s[0] == '\n' then DropNewlines(s[1..])
    else [s[0]] + DropNewlines(s[1..])
  }

  lemma {:induction false} DropNewlinesRun(s: string, n: nat)
    requires n <= |s| && forall i :: 0 <= i < n ==> s[i] == '\n'
    ensures DropNewlines(s) == DropNewlines(s[n..])
    decreases n
  {
    if n > 0 {
      assert s[1..][n - 1..] == s[n..];
      DropNewlinesRun(s[1..], n - 1);
    }
  }

  /** Only newlines are removed: every other character stays, in order. */
  lemma {:induction false} CollapseKeepsText(s: string)
    ensures DropNewlines(Collapse(s)) == DropNewlines(s)
    decreases |s|
  {
    if |s| > 0 {
      var n := NewlineRun(s);
      if n >= 3 {
        var rest := Collapse(s[n..]);
        CollapseKeepsText(s[n..]);
        DropNewlinesRun(s, n);
        assert (['\n'] + (['\n'] + rest))[1..] == ['\n'] + rest;
        assert (['\n'] + rest)[1..] == rest;
      } else {
        CollapseKeepsText(s[1..]);
        assert ([s[0]] + Collapse(s[1..]))[1..] == Collapse(s[1..]);
      }
    }
  }

  // ---------------------------------------------------------------------
  // The whole conversion

  /** The last two steps: collapse blank lines, then `strip()`. */
  function Tidy(markdown: string): (r: string)
    ensures |r| <= |markdown|
  {
    Strip(Collapse(markdown))
  }

  /** `page_to_markdown`, given the page's HTML and markdownify. */
  function PageToMarkdown(html: string, markdownify: string -> string): (r: string)
    ensures |r| <= |markdownify(StripNoise(html))|
  {
    Tidy(markdownify(StripNoise(html)))
  }

  lemma NoTripleSlice(s: string, i: nat, j: nat)
    requires NoTriple(s) && i <= j <= |s|
    ensures NoTriple(s[i..j])
  {
    forall m ensures !TripleAt(s[i..j], m) {
      if TripleAt(s[i..j], m) {
        assert TripleAt(s, i + m);
      }
    }
  }

  /** The markdown handed on has no surrounding whitespace and no run of
      three newlines. */
  lemma TidyIsClean(markdown: string)
    ensures var r := Tidy(markdown);
            && NoTriple(r)
            && (|r| > 0 ==> !IsPythonSpace(r[0]) && !IsPythonSpace(r[|r| - 1]))
  {
    TidyHasNoTriple(markdown);
  }

  lemma TidyHasNoTriple(markdown: string)
    ensures NoTriple(Tidy(markdown))
  {
    CollapseHasNoTriple(markdown);
    StripKeepsNoTriple(Collapse(markdown));
  }

  /** `strip()` returns a slice of its argument, so it makes no run of
      three newlines. */
  lemma StripKeepsNoTriple(s: string)
    requires NoTriple(s)
    ensures NoTriple(Strip(s))
  {
    var i := |s| - |TrimStart(s, IsPythonSpace)|;
    NoTripleSlice(s, i, i + |Strip(s)|);
  }

  /** Cleaning the markdown a second time changes nothing. */
  lemma TidyIdempotent(markdown: string)
    ensures Tidy(Tidy(markdown)) == Tidy(markdown)
  {
    var r := Tidy(markdown);
    TidyIsClean(markdown);
    CollapseUnchangedIff(r);
    assert Collapse(r) == r;
    TrimIdempotent(Collapse(markdown), IsPythonSpace);
  }

  /** Whatever markdownify produces, the page's markdown is clean. */
  lemma PageToMarkdownIsClean(html: string, markdownify: string -> string)
    ensures var r := PageToMarkdown(html, markdownify);
            && NoTriple(r)
            && (|r| > 0 ==> !IsPythonSpace(r[0]) && !IsPythonSpace(r[|r| - 1]))
  {
    TidyIsClean(markdownify(StripNoise(html)));
  }

  /** HTML without markup reaches markdownify unchanged. */
  lemma PlainPageReachesMarkdownify(html: string, markdownify: string -> string)
    requires '<' !in html
    ensures PageToMarkdown(html, markdownify) == Tidy(markdownify(html))
  {
    NoMarkupUnchanged(html, NoiseTags);
  }
}

=== FILE: planner.dfy ===
/**
  The planner's reply handling (`get_llm_commands`, llm.py:83-101): the
  model's reply is stripped of surrounding whitespace, a fenced block is
  unwrapped, and the text is parsed as JSON; a reply that does not parse
  becomes the empty plan `[]`. The call to the language model itself is not
  part of this model: the reply is an input.
*/
module Planner {

  import opened Text
  import opened Values
  import opened Fence

  /** The text handed to `json.loads`: the stripped reply, unfenced. */
  function ParserInput(reply: string): (r: string)
    ensures !HasTicks(Strip(reply)) ==> r == Strip(reply)
    ensures FenceBody(Strip(reply)).Some? ==> r == FenceBody(Strip(reply)).value
    ensures FenceBody(Strip(reply)).None? ==> r == Strip(reply)
  {
    Unfence(Strip(reply))
  }

  /** The empty plan, returned when the reply does not parse. */
  const NoCommands: Json := JArray([])

  /** What `get_llm_commands` returns for `reply`. In this model, where
      `loads` either decodes or reports a decode error, it never raises: a
      decode failure yields `[]`, and whatever parses is returned as it is,
      list of commands or not. The ValueError `json.loads` raises for an
      integer of more than 4300 digits, and its RecursionError for deep
      nesting, are not caught by the source. */
  function PlanFromReply(reply: string, loads: string -> Decoded): (r: Json)
    ensures loads(ParserInput(reply)).DecodeError? ==> r == NoCommands
    ensures loads(ParserInput(reply)).Parsed? ==> r == loads(ParserInput(reply)).value
  {
    match loads(ParserInput(reply))
    case Parsed(v) => v
    case DecodeError(_) => NoCommands
  }

  /** The reply is stripped before anything else: whitespace around it never
      changes the plan. */
  lemma SurroundingSpaceIgnored(w1: string, reply: string, w2: string, loads: string -> Decoded)
    requires AllSatisfy(w1, IsPythonSpace) && AllSatisfy(w2, IsPythonSpace)
    ensures ParserInput(w1 + reply + w2) == ParserInput(reply)
    ensures PlanFromReply(w1 + reply + w2, loads) == PlanFromReply(reply, loads)
  {
    TrimAbsorbsPadding(w1, reply, w2, IsPythonSpace);
  }

  /** A reply wrapped in a fence, tagged `json` or not, is planned exactly as
      the content inside it: fenced and bare replies parse identically. */
  lemma FencedReplyIsContent(tag: string, c: string, loads: string -> Decoded)
    requires tag == "json" || tag == ""
    requires !HasTicks(c)
    requires |c| > 0 ==> !IsPythonSpace(c[0]) && !IsPythonSpace(c[|c| - 1])
    ensures ParserInput(Ticks + tag + "\n" + c + "\n" + Ticks) == c
    ensures PlanFromReply(Ticks + tag + "\n" + c + "\n" + Ticks, loads) == PlanFromReply(c, loads)
  {
    var s := Ticks + tag + "\n" + c + "\n" + Ticks;
    TrimUnchanged(s, IsPythonSpace);
    UnfenceRoundTrip(tag, c);
    TrimUnchanged(c, IsPythonSpace);
    UnfenceWithoutTicks(c);
  }

  /** A reply whose fences never close is parsed as the stripped reply. */
  lemma UnclosedFenceParsedWhole(reply: string)
    requires forall i, j :: TicksAt(Strip(reply), i) && TicksAt(Strip(reply), j) ==> j < i + 3
    ensures ParserInput(reply) == Strip(reply)
  {
    UnfenceUnclosed(Strip(reply));
  }

  /** Malformed text never makes the planner fail: it plans nothing. */
  lemma UnparsableReplyPlansNothing(reply: string, loads: string -> Decoded)
    requires loads(ParserInput(reply)).DecodeError?
    ensures PlanFromReply(reply, loads) == NoCommands
    ensures !Truthy(PlanFromReply(reply, loads))
  {
  }
}

=== FILE: snapshot.dfy ===
/**
  The element indexer (`get_page_summary`, get_snapshot.py): every
  `data-idx` marker is removed, then the interactive elements of the page
  are scanned in document order; each visible one gets the next handle,
  written into its `data-idx` attribute, and one line `[i] KIND: "label"`.
  The page is a sequence of element records whose layout facts (computed
  style, `offsetParent`) are given; absent attributes are the empty string,
  which JavaScript's `||` treats like a missing one.
*/
module Snapshot {

  import opened Options
  import opened Text

  /** The lower-cased tag names the scan tells apart. */
  datatype Tag = TagA | TagButton | TagInput | TagSelect | TagTextArea | OtherTag

  /** The `role` values the scan tells apart; `OtherRole` includes an
      absent attribute. */
  datatype Role = RoleButton | RoleLink | RoleSearchbox | RoleTextbox | OtherRole

  /** One element of the page, as the scan sees it. */
  datatype Element = Element(
    tag: Tag,
    role: Role,
    offsetParentNull: bool,   // `el.offsetParent === null`
    positionFixed: bool,      // computed `position` is `fixed`
    visibilityHidden: bool,   // computed `visibility` is `hidden`
    displayNone: bool,        // computed `display` is `none`
    innerText: string,
    ariaLabel: string,        // the `aria-label` attribute
    href: string,             // the `href` property
    placeholder: string,      // the `placeholder` property
    name: string,             // the `name` property
    inputType: string,        // the `type` property
    marker: Option<string>    // the `data-idx` attribute
  )

  /** The page's elements in document order. */
  type Dom = seq<Element>

  /** Matched by the selector list `a, button, input, select, textarea,
      [role="button"], [role="link"], [role="searchbox"], [role="textbox"]`. */
  predicate IsCandidate(e: Element) {
    e.tag != OtherTag || e.role != OtherRole
  }

  /** Skipped as invisible: no offset parent without being fixed, or hidden,
      or not displayed. */
  predicate IsHidden(e: Element) {
    (e.offsetParentNull && !e.positionFixed) || e.visibilityHidden || e.displayNone
  }

  /** Receives a handle and a line. */
  predicate IsListed(e: Element) {
    IsCandidate(e) && !IsHidden(e)
  }

  datatype Kind = Link | Button | Input | Dropdown | TextArea

  function KindName(k: Kind): string {
    match k
    case Link => "LINK"
    case Button => "BUTTON"
    case Input => "INPUT"
    case Dropdown => "DROPDOWN"
    case TextArea => "TEXTAREA"
  }

  /** The branch of the `if`/`else if` chain the element takes; `None` when
      it takes none and so pushes no line. */
  function KindOf(e: Element): Option<Kind> {
    if e.tag == TagA || e.role == RoleLink then Some(Link)
    else if e.tag == TagButton || e.role == RoleButton then Some(Button)
    else if e.tag == TagInput || e.role == RoleSearchbox || e.role == RoleTextbox then Some(Input)
    else if e.tag == TagSelect then Some(Dropdown)
    else if e.tag == TagTextArea then Some(TextArea)
    else None
  }

  /** JavaScript's `a || b` on two strings. */
  function Or(a: string, b: string): (r: string)
    ensures |a| > 0 ==> r == a
    ensures |a| == 0 ==> r == b
  {
    if |a| > 0 then a else b
  }

  /** `s.slice(0, n)`. */
  function Prefix(s: string, n: nat): (r: string)
    ensures |r| <= n && |r| <= |s| && r == s[..|r|]
    ensures |s| <= n ==> r == s
  {
    if |s| <= n then s else s[..n]
  }

  const LinkTextLimit: nat := 50

  /** The quoted description of an element of kind `k`: the first non-empty
      of its candidates, ending in a fixed word. */
  function Label(e: Element, k: Kind): (r: string)
    ensures |r| > 0
  {
    match k
    case Link =>
      Or(Or(Or(Prefix(Trim(e.innerText, IsJsSpace), LinkTextLimit), e.ariaLabel), e.href), "link")
    case Button =>
      Or(Or(Trim(e.innerText, IsJsSpace), e.ariaLabel), "button")
    case Input =>
      Or(Or(Or(Or(e.placeholder, e.ariaLabel), e.name), e.inputType), "input")
    case Dropdown =>
      Or(e.name, "select")
    case TextArea =>
      Or(Or(e.placeholder, e.ariaLabel), "textarea")
  }

  /** What the scan records for one listed element: its handle, its kind
      and its label. */
  datatype Entry = Entry(handle: nat, kind: Kind, caption: string)

  /** The line `[i] KIND: "label"` of an entry. */
  function Render(entry: Entry): string {
    "[" + NatToString(entry.handle) + "] " + KindName(entry.kind) + ": \"" + entry.caption + "\""
  }

  /** The lines of the entries, in order. */
  function Lines(entries: seq<Entry>): (r: seq<string>)
    ensures |r| == |entries|
    ensures forall i :: 0 <= i < |entries| ==> r[i] == Render(entries[i])
  {
    seq(|entries|, i requires 0 <= i < |entries| => Render(entries[i]))
  }

  /** The number of listed elements. */
  function ListedCount(dom: Dom): (n: nat)
    ensures n <= |dom|
  {
    if |dom| == 0 then 0
    else (if IsListed(dom[0]) then 1 else 0) + ListedCount(dom[1..])
  }

  /** The page after the scan, and the entries of its lines. */
  datatype Scan = Scan(dom: Dom, entries: seq<Entry>)

  /** The `forEach` over `dom`, with `next` the value of `visibleIdx`. */
  function ScanFrom(dom: Dom, next: nat): (r: Scan)
    ensures |r.dom| == |dom|
  {
    if |dom| == 0 then Scan([], [])
    else
      var e := dom[0];
      if !IsListed(e) then
        var rest := ScanFrom(dom[1..], next);
        Scan([e] + rest.dom, rest.entries)
      else
        var rest := ScanFrom(dom[1..], next + 1);
        var line := match KindOf(e)
          case Some(k) => [Entry(next, k, Label(e, k))]
          case None => [];
        Scan([e.(marker := Some(NatToString(next)))] + rest.dom, line + rest.entries)
  }

  /** The first `page.evaluate`: every `data-idx` attribute removed. */
  function ClearMarkers(dom: Dom): (r: Dom)
    ensures |r| == |dom|
    ensures forall k :: 0 <= k < |dom| ==> r[k] == dom[k].(marker := None)
  {
    if |dom| == 0 then [] else [dom[0].(marker := None)] + ClearMarkers(dom[1..])
  }

  /** One scan of the page: markers cleared, then set afresh. */
  function Index(dom: Dom): (r: Scan)
    ensures |r.dom| == |dom|
  {
    ScanFrom(ClearMarkers(dom), 0)
  }

  /** The text `get_page_summary` returns. */
  function Summary(url: string, title: string, lines: seq<string>): string {
    "URL: " + url + "\nTitle: " + title + "\n\nElements:\n" + Join(lines, "\n")
  }

  // ---------------------------------------------------------------------
  // Properties

  /** Every element the selectors match takes one of the branches, and
      only those do. */
  lemma CandidatesHaveKind(e: Element)
    ensures KindOf(e).Some? <==> IsCandidate(e)
  {
  }

  /** An anchor is a link whatever its role. */
  lemma AnchorIsLink(e: Element)
    requires e.tag == TagA
    ensures KindOf(e) == Some(Link)
  {
  }

  /** Only the link's own text is cut to 50 characters; an `aria-label` or
      `href` that stands in for it is kept whole. */
  lemma LinkLabelFallback(e: Element)
    ensures |Trim(e.innerText, IsJsSpace)| > 0 ==>
              Label(e, Link) == Prefix(Trim(e.innerText, IsJsSpace), LinkTextLimit)
              && |Label(e, Link)| <= LinkTextLimit
    ensures |Trim(e.innerText, IsJsSpace)| == 0 && |e.ariaLabel| > 0 ==> Label(e, Link) == e.ariaLabel
    ensures |Trim(e.innerText, IsJsSpace)| == 0 && |e.ariaLabel| == 0 && |e.href| > 0 ==> Label(e, Link) == e.href
    ensures |Trim(e.innerText, IsJsSpace)| == 0 && |e.ariaLabel| == 0 && |e.href| == 0 ==> Label(e, Link) == "link"
  {
  }

  lemma {:induction false} ListedCountAppend(a: Dom, b: Dom)
    ensures ListedCount(a + b) == ListedCount(a) + ListedCount(b)
  {
    if |a| == 0 {
      assert a + b == b;
    } else {
      assert (a + b)[1..] == a[1..] + b;
      ListedCountAppend(a[1..], b);
    }
  }

  /** One line per listed element: the scan has as many lines as the page
      has visible candidates. */
  lemma {:induction false} LineCount(dom: Dom, next: nat)
    ensures |ScanFrom(dom, next).entries| == ListedCount(dom)
  {
    if |dom| > 0 {
      CandidatesHaveKind(dom[0]);
      if IsListed(dom[0]) {
        LineCount(dom[1..], next + 1);
      } else {
        LineCount(dom[1..], next);
      }
    }
  }

  /** The line of a listed element `e` with handle `i`. */
  function EntryFor(i: nat, e: Element): (r: Entry)
    requires IsListed(e)
    ensures r.handle == i && KindOf(e) == Some(r.kind) && |r.caption| > 0
  {
    CandidatesHaveKind(e);
    var k := KindOf(e).value;
    Entry(i, k, Label(e, k))
  }

  /** One step of the scan on the page: the first element, then the rest
      with the next handle if the first took one. */
  lemma ScanStepDom(dom: Dom, next: nat)
    requires |dom| > 0
    ensures !IsListed(dom[0]) ==> ScanFrom(dom, next).dom == [dom[0]] + ScanFrom(dom[1..], next).dom
    ensures IsListed(dom[0]) ==>
              ScanFrom(dom, next).dom == [dom[0].(marker := Some(NatToString(next)))] + ScanFrom(dom[1..], next + 1).dom
  {
  }

  /** One step of the scan on the lines. */
  lemma ScanStepLines(dom: Dom, next: nat)
    requires |dom| > 0
    ensures !IsListed(dom[0]) ==> ScanFrom(dom, next).entries == ScanFrom(dom[1..], next).entries
    ensures IsListed(dom[0]) ==>
              ScanFrom(dom, next).entries == [EntryFor(next, dom[0])] + ScanFrom(dom[1..], next + 1).entries
  {
    CandidatesHaveKind(dom[0]);
  }

  lemma ListedCountCons(dom: Dom, k: nat)
    requires 0 < k <= |dom|
    ensures ListedCount(dom[..k]) == (if IsListed(dom[0]) then 1 else 0) + ListedCount(dom[1..][..k - 1])
  {
    assert dom[..k] == [dom[0]] + dom[1..][..k - 1];
    ListedCountAppend([dom[0]], dom[1..][..k - 1]);
    assert ListedCount([dom[0]]) == (if IsListed(dom[0]) then 1 else 0);
  }

  /** The handle the scan starting at `next` gives the `k`-th element, if
      that element is listed. */
  function HandleAt(dom: Dom, next: nat, k: nat): nat
    requires k <= |dom|
  {
    next + ListedCount(dom[..k])
  }

  /** Handles count on from the first element's. */
  lemma HandleShift(dom: Dom, next: nat, k: nat)
    requires 0 < k <= |dom|
    ensures HandleAt(dom, next, k) == HandleAt(dom[1..], if IsListed(dom[0]) then next + 1 else next, k - 1)
  {
    ListedCountCons(dom, k);
  }

  /** What the scan leaves at position `k`. */
  predicate MarkedAt(dom: Dom, next: nat, k: nat)
    requires k < |dom|
  {
    var after := ScanFrom(dom, next).dom[k];
    && (!IsListed(dom[k]) ==> after == dom[k])
    && (IsListed(dom[k]) ==> after == dom[k].(marker := Some(NatToString(HandleAt(dom, next, k)))))
  }

  lemma MarkedAtFirst(dom: Dom, next: nat)
    requires |dom| > 0
    ensures MarkedAt(dom, next, 0)
  {
    ScanStepDom(dom, next);
    assert dom[..0] == [];
  }

  lemma MarkedAtShift(dom: Dom, next: nat, k: nat)
    requires 0 < k < |dom|
    requires MarkedAt(dom[1..], if IsListed(dom[0]) then next + 1 else next, k - 1)
    ensures MarkedAt(dom, next, k)
  {
    ScanStepDom(dom, next);
    HandleShift(dom, next, k);
    assert dom[1..][k - 1] == dom[k];
  }

  /** The `k`-th element after the scan: unchanged if it is not listed,
      otherwise marked with the handle counting the listed elements before
      it. */
  lemma {:induction false} MarkAt(dom: Dom, next: nat, k: nat)
    requires k < |dom|
    ensures MarkedAt(dom, next, k)
  {
    if k == 0 {
      MarkedAtFirst(dom, next);
    } else {
      MarkAt(dom[1..], if IsListed(dom[0]) then next + 1 else next, k - 1);
      MarkedAtShift(dom, next, k);
    }
  }

  /** The line the scan starting at `next` writes for the listed `k`-th
      element: the one numbered with its handle. */
  predicate LinedAt(dom: Dom, next: nat, k: nat)
    requires k < |dom| && IsListed(dom[k])
  {
    var entries := ScanFrom(dom, next).entries;
    var h := ListedCount(dom[..k]);
    h < |entries| && entries[h] == EntryFor(next + h, dom[k])
  }

  lemma LinedAtFirst(dom: Dom, next: nat)
    requires |dom| > 0 && IsListed(dom[0])
    ensures LinedAt(dom, next, 0)
  {
    ScanStepLines(dom, next);
    assert dom[..0] == [];
  }

  lemma LinedAtShift(dom: Dom, next: nat, k: nat)
    requires 0 < k < |dom| && IsListed(dom[k])
    requires dom[1..][k - 1] == dom[k]
    requires LinedAt(dom[1..], if IsListed(dom[0]) then next + 1 else next, k - 1)
    ensures LinedAt(dom, next, k)
  {
    var after := if IsListed(dom[0]) then next + 1 else next;
    var entries := ScanFrom(dom, next).entries;
    var rest := ScanFrom(dom[1..], after).entries;
    var h := ListedCount(dom[1..][..k - 1]);
    assert h < |rest| && rest[h] == EntryFor(after + h, dom[k]);
    ScanStepLines(dom, next);
    ListedCountCons(dom, k);
    if IsListed(dom[0]) {
      assert entries[h + 1] == rest[h];
    } else {
      assert entries == rest;
    }
  }

  /** A listed element is described on the line numbered with its handle. */
  lemma {:induction false} LineAt(dom: Dom, next: nat, k: nat)
    requires k < |dom| && IsListed(dom[k])
    ensures LinedAt(dom, next, k)
  {
    if k == 0 {
      LinedAtFirst(dom, next);
    } else {
      assert dom[1..][k - 1] == dom[k];
      LineAt(dom[1..], if IsListed(dom[0]) then next + 1 else next, k - 1);
      LinedAtShift(dom, next, k);
    }
  }

  /** After a scan an element carries a marker exactly when it is a visible
      candidate, and then the marker is its handle. */
  lemma MarkerIffListed(dom: Dom, k: nat)
    requires k < |dom|
    ensures Index(dom).dom[k].marker.Some? <==> IsListed(dom[k])
    ensures IsListed(dom[k]) ==> Index(dom).dom[k].marker == Some(NatToString(ListedCount(dom[..k])))
  {
    var cleared := ClearMarkers(dom);
    MarkAt(cleared, 0, k);
    assert cleared[..k] == ClearMarkers(dom[..k]);
    ListedCountCleared(dom[..k]);
  }

  /** Markers play no part in which elements are listed. */
  lemma {:induction false} ListedCountCleared(dom: Dom)
    ensures ListedCount(ClearMarkers(dom)) == ListedCount(dom)
  {
    if |dom| > 0 {
      assert ClearMarkers(dom)[1..] == ClearMarkers(dom[1..]);
      ListedCountCleared(dom[1..]);
    }
  }

  /** Handles grow with document order: a listed element's handle is
      below the handle of every element after it. */
  lemma HandlesIncrease(dom: Dom, k1: nat, k2: nat)
    requires k1 < k2 <= |dom| && IsListed(dom[k1])
    ensures ListedCount(dom[..k1]) < ListedCount(dom[..k2])
  {
    assert dom[..k2] == dom[..k1] + dom[k1..k2];
    ListedCountAppend(dom[..k1], dom[k1..k2]);
    assert dom[k1..k2] == [dom[k1]] + dom[k1 + 1..k2];
    ListedCountAppend([dom[k1]], dom[k1 + 1..k2]);
    assert ListedCount([dom[k1]]) == 1;
  }

  /** The listed element whose handle is `n`, for every `n` below the
      number of listed elements. */
  lemma {:induction false} ListedWithHandle(dom: Dom, n: nat) returns (k: nat)
    requires n < ListedCount(dom)
    ensures k < |dom| && IsListed(dom[k]) && ListedCount(dom[..k]) == n
  {
    var first := if IsListed(dom[0]) then 1 else 0;
    if IsListed(dom[0]) && n == 0 {
      k := 0;
      assert dom[..0] == [];
    } else {
      var k' := ListedWithHandle(dom[1..], n - first);
      k := k' + 1;
      ListedCountCons(dom, k);
      assert dom[1..][k'] == dom[k];
    }
  }

  /** After a scan the markers `0`, `1`, ... up to the number of visible
      candidates each sit on exactly one element, and no other number is
      used. */
  lemma MarkersAreHandles(dom: Dom, n: nat)
    ensures n < ListedCount(dom) ==>
              exists k :: 0 <= k < |dom| && Index(dom).dom[k].marker == Some(NatToString(n))
    ensures forall k1, k2 ::
              (&& 0 <= k1 < |dom| && 0 <= k2 < |dom|
               && Index(dom).dom[k1].marker == Some(NatToString(n))
               && Index(dom).dom[k2].marker == Some(NatToString(n))) ==> k1 == k2
    ensures forall k :: 0 <= k < |dom| && Index(dom).dom[k].marker == Some(NatToString(n)) ==> n < ListedCount(dom)
  {
    if n < ListedCount(dom) {
      var k := ListedWithHandle(dom, n);
      MarkerIffListed(dom, k);
    }
    forall k1, k2 |
      0 <= k1 < |dom| && 0 <= k2 < |dom| &&
      Index(dom).dom[k1].marker == Some(NatToString(n)) &&
      Index(dom).dom[k2].marker == Some(NatToString(n))
      ensures k1 == k2
    {
      MarkerIffListed(dom, k1);
      MarkerIffListed(dom, k2);
      NatToStringInjective(ListedCount(dom[..k1]), n);
      NatToStringInjective(ListedCount(dom[..k2]), n);
      if k1 < k2 {
        HandlesIncrease(dom, k1, k2);
      } else if k2 < k1 {
        HandlesIncrease(dom, k2, k1);
      }
    }
    forall k | 0 <= k < |dom| && Index(dom).dom[k].marker == Some(NatToString(n))
      ensures n < ListedCount(dom)
    {
      MarkerIffListed(dom, k);
      NatToStringInjective(ListedCount(dom[..k]), n);
      HandlesIncrease(dom, k, |dom|);
      assert dom[..|dom|] == dom;
    }
  }

  /** The entries carry the handles `next`, `next + 1`, ... in order: the
      `i`-th line is numbered `i`. */
  lemma {:induction false} EntriesNumbered(dom: Dom, next: nat)
    ensures forall i :: 0 <= i < |ScanFrom(dom, next).entries| ==> ScanFrom(dom, next).entries[i].handle == next + i
  {
    if |dom| > 0 {
      ScanStepLines(dom, next);
      if IsListed(dom[0]) {
        EntriesNumbered(dom[1..], next + 1);
      } else {
        EntriesNumbered(dom[1..], next);
      }
    }
  }

  /** A scan changes nothing but markers. */
  lemma OnlyMarkersChange(dom: Dom)
    ensures ClearMarkers(Index(dom).dom) == ClearMarkers(dom)
  {
    var cleared := ClearMarkers(dom);
    forall k | 0 <= k < |dom|
      ensures ClearMarkers(Index(dom).dom)[k] == ClearMarkers(dom)[k]
    {
      MarkAt(cleared, 0, k);
    }
  }

  /** Scanning a scanned page again gives the same markers and lines. */
  lemma IndexIdempotent(dom: Dom)
    ensures Index(Index(dom).dom) == Index(dom)
  {
    OnlyMarkersChange(dom);
  }

  /** `Lines` distributes over concatenation. */
  lemma LinesAppend(a: seq<Entry>, b: seq<Entry>)
    ensures Lines(a + b) == Lines(a) + Lines(b)
  {
  }

  /** The first `page.evaluate` as written: every element loses its
      `data-idx` attribute. */
  method RemoveMarkers(dom: Dom) returns (cleared: Dom)
    ensures cleared == ClearMarkers(dom)
  {
    cleared := [];
    var j := 0;
    while j < |dom|
      invariant 0 <= j <= |dom| && |cleared| == j
      invariant forall k :: 0 <= k < j ==> cleared[k] == dom[k].(marker := None)
    {
      cleared := cleared + [dom[j].(marker := None)];
      j := j + 1;
    }
  }

  /** The state of the `forEach` before element `i`: what is marked and
      pushed so far, followed by what the scan does from `i` on, is the
      whole scan. */
  ghost predicate Numbered(cleared: Dom, i: nat, idx: nat, marked: Dom, lines: seq<string>)
    requires i <= |cleared|
  {
    && marked + ScanFrom(cleared[i..], idx).dom == ScanFrom(cleared, 0).dom
    && lines + Lines(ScanFrom(cleared[i..], idx).entries) == Lines(ScanFrom(cleared, 0).entries)
  }

  /** One turn of the `forEach` keeps `Numbered`. */
  lemma NumberStep(cleared: Dom, i: nat, idx: nat, marked: Dom, lines: seq<string>)
    requires i < |cleared| && Numbered(cleared, i, idx, marked, lines)
    ensures var el := cleared[i];
            && (!IsListed(el) ==> Numbered(cleared, i + 1, idx, marked + [el], lines))
            && (IsListed(el) ==>
                  Numbered(cleared, i + 1, idx + 1, marked + [el.(marker := Some(NatToString(idx)))],
                           lines + [Render(EntryFor(idx, el))]))
  {
    NumberStepDom(cleared, i, idx, marked);
    NumberStepLines(cleared, i, idx, lines);
    if IsListed(cleared[i]) {
      assert Lines([EntryFor(idx, cleared[i])]) == [Render(EntryFor(idx, cleared[i]))];
    } else {
      assert Lines([]) == [];
    }
  }

  lemma NumberStepDom(cleared: Dom, i: nat, idx: nat, marked: Dom)
    requires i < |cleared|
    requires marked + ScanFrom(cleared[i..], idx).dom == ScanFrom(cleared, 0).dom
    ensures var el := cleared[i];
            var next := if IsListed(el) then idx + 1 else idx;
            var x := if IsListed(el) then el.(marker := Some(NatToString(idx))) else el;
            (marked + [x]) + ScanFrom(cleared[i + 1..], next).dom == ScanFrom(cleared, 0).dom
  {
    var el := cleared[i];
    var x := if IsListed(el) then el.(marker := Some(NatToString(idx))) else el;
    var after := ScanFrom(cleared[i + 1..], if IsListed(el) then idx + 1 else idx).dom;
    assert cleared[i..][0] == el;
    assert cleared[i..][1..] == cleared[i + 1..];
    ScanStepDom(cleared[i..], idx);
    assert ScanFrom(cleared[i..], idx).dom == [x] + after;
    assert (marked + [x]) + after == marked + ([x] + after);
  }

  lemma NumberStepLines(cleared: Dom, i: nat, idx: nat, lines: seq<string>)
    requires i < |cleared|
    requires lines + Lines(ScanFrom(cleared[i..], idx).entries) == Lines(ScanFrom(cleared, 0).entries)
    ensures var el := cleared[i];
            var next := if IsListed(el) then idx + 1 else idx;
            var pushed := if IsListed(el) then [EntryFor(idx, el)] else [];
            (lines + Lines(pushed)) + Lines(ScanFrom(cleared[i + 1..], next).entries) == Lines(ScanFrom(cleared, 0).entries)
  {
    var el := cleared[i];
    var pushed := if IsListed(el) then [EntryFor(idx, el)] else [];
    var after := ScanFrom(cleared[i + 1..], if IsListed(el) then idx + 1 else idx).entries;
    assert cleared[i..][0] == el;
    assert cleared[i..][1..] == cleared[i + 1..];
    ScanStepLines(cleared[i..], idx);
    assert ScanFrom(cleared[i..], idx).entries == pushed + after;
    LinesAppend(pushed, after);
    AppendAssociates(lines, Lines(pushed), Lines(after));
  }

  /** The `forEach` of the in-page script as written: `visibleIdx` numbers
      the visible candidates, each gets its marker and pushes its line. */
  method NumberElements(cleared: Dom) returns (marked: Dom, lines: seq<string>)
    ensures marked == ScanFrom(cleared, 0).dom
    ensures lines == Lines(ScanFrom(cleared, 0).entries)
  {
    lines := [];
    var visibleIdx: nat := 0;
    marked := [];
    var i := 0;
    while i < |cleared|
      invariant 0 <= i <= |cleared|
      invariant Numbered(cleared, i, visibleIdx, marked, lines)
    {
      var el := cleared[i];
      NumberStep(cleared, i, visibleIdx, marked, lines);
      if IsHidden(el) || !IsCandidate(el) {
        marked := marked + [el];
      } else {
        CandidatesHaveKind(el);
        var k := KindOf(el).value;
        marked := marked + [el.(marker := Some(NatToString(visibleIdx)))];
        lines := lines + [Render(Entry(visibleIdx, k, Label(el, k)))];
        visibleIdx := visibleIdx + 1;
      }
      i := i + 1;
    }
    assert cleared[i..] == [];
    assert lines + [] == lines && marked + [] == marked;
  }

  /** The in-page script as written: markers removed, elements numbered,
      lines joined with newlines. */
  method ScanPage(dom: Dom) returns (marked: Dom, text: string)
    ensures marked == Index(dom).dom
    ensures text == Join(Lines(Index(dom).entries), "\n")
  {
    var cleared := RemoveMarkers(dom);
    var lines;
    marked, lines := NumberElements(cleared);
    text := Join(lines, "\n");
  }

  /** The header lines of the summary. */
  function Header(url: string, title: string): seq<string> {
    ["URL: " + url, "Title: " + title, "", "Elements:"]
  }

  lemma HeaderJoined(url: string, title: string)
    ensures Join(Header(url, title), "\n") + "\n" == "URL: " + url + "\nTitle: " + title + "\n\nElements:\n"
  {
    var a, b := "URL: " + url, "Title: " + title;
    var h := Header(url, title);
    assert h[1..] == [b, "", "Elements:"];
    assert h[1..][1..] == ["", "Elements:"];
    assert h[1..][1..][1..] == ["Elements:"];
    assert Join(["", "Elements:"], "\n") == "" + "\n" + "Elements:";
    assert Join(h, "\n") == a + "\n" + (b + "\n" + ("" + "\n" + "Elements:"));
  }

  /** When neither the address, the title nor any line holds a newline,
      the summary is the header and then one element per line; a page
      with nothing to list ends in one empty line after the header. */
  lemma SummaryLayout(url: string, title: string, lines: seq<string>)
    requires '\n' !in url && '\n' !in title
    requires forall i :: 0 <= i < |lines| ==> '\n' !in lines[i]
    ensures |lines| > 0 ==> Split(Summary(url, title, lines), '\n') == Header(url, title) + lines
    ensures |lines| == 0 ==> Split(Summary(url, title, lines), '\n') == Header(url, title) + [""]
  {
    var h := Header(url, title);
    var body := if |lines| == 0 then [""] else lines;
    assert Join(body, "\n") == Join(lines, "\n");
    JoinAppend(h, body, "\n");
    HeaderJoined(url, title);
    assert Summary(url, title, lines) == Join(h + body, "\n");
    forall i | 0 <= i < |h + body|
      ensures '\n' !in (h + body)[i]
    {
      if i >= |h| {
        assert (h + body)[i] == body[i - |h|];
      }
    }
    SplitJoin(h + body, '\n');
  }
}

=== FILE: text.dfy ===
/** The optional-value type used throughout the model. */
module Options {

  datatype Option<+T> = None | Some(value: T)
}

/**
  String helpers shared by every component: the two whitespace classes the
  system relies on (Python's and JavaScript's), trimming, substring search,
  decimal numerals, and joining/splitting on a separator.

  Strings are `seq<char>`, one `char` per Unicode code point. JavaScript's
  UTF-16 code units are not modelled: a surrogate pair is one `char` here.
*/
module Text {

  /** Python's `str.isspace()`, which is also what `\s` matches in a `re`
      pattern over `str` (both are Py_UNICODE_ISSPACE). */
  predicate IsPythonSpace(c: char) {
    var n := c as int;
    || (9 <= n <= 13)
    || (28 <= n <= 32)
    || n == 0x85
    || n == 0xA0
    || n == 0x1680
    || (0x2000 <= n <= 0x200A)
    || n == 0x2028
    || n == 0x2029
    || n == 0x202F
    || n == 0x205F
    || n == 0x3000
  }

  /** What JavaScript's `String.prototype.trim` removes: WhiteSpace and
      LineTerminator code points (section 22.1.3.32 of ECMA-262). Unlike
      Python it includes U+FEFF and excludes U+001C..U+001F and U+0085. */
  predicate IsJsSpace(c: char) {
    var n := c as int;
    || (9 <= n <= 13)
    || n == 32
    || n == 0xA0
    || n == 0x1680
    || (0x2000 <= n <= 0x200A)
    || n == 0x2028
    || n == 0x2029
    || n == 0x202F
    || n == 0x205F
    || n == 0x3000
    || n == 0xFEFF
  }

  predicate AllSatisfy(s: string, p: char -> bool) {
    forall i :: 0 <= i < |s| ==> p(s[i])
  }

  /** The index of the first character at or after `i` that is not a `ws`
      character, or `|s|` when there is none. */
  function SkipFrom(s: string, ws: char -> bool, i: nat): (j: nat)
    requires i <= |s|
    ensures i <= j <= |s|
    ensures forall k :: i <= k < j ==> ws(s[k])
    ensures j < |s| ==> !ws(s[j])
    decreases |s| - i
  {
    if i < |s| && ws(s[i]) then SkipFrom(s, ws, i + 1) else i
  }

  /** The index just after the last character of `s[i..j]` that is not a
      `ws` character, or `i` when there is none. */
  function SkipBack(s: string, ws: char -> bool, i: nat, j: nat): (h: nat)
    requires i <= j <= |s|
    ensures i <= h <= j
    ensures forall k :: h <= k < j ==> ws(s[k])
    ensures h > i ==> !ws(s[h - 1])
    decreases j - i
  {
    if i < j && ws(s[j - 1]) then SkipBack(s, ws, i, j - 1) else j
  }

  /** Drops the longest prefix of characters satisfying `ws`. */
  function TrimStart(s: string, ws: char -> bool): (r: string)
    ensures |r| <= |s| && r == s[|s| - |r|..]
    ensures AllSatisfy(s[..|s| - |r|], ws)
    ensures |r| > 0 ==> !ws(r[0])
  {
    s[SkipFrom(s, ws, 0)..]
  }

  /** Removes `ws` characters from both ends: the result is the slice of
      `s` between a `ws`-only prefix and a `ws`-only suffix, and it neither
      starts nor ends with a `ws` character. */
  function Trim(s: string, ws: char -> bool): (r: string)
    ensures |r| <= |s|
    ensures |r| > 0 ==> !ws(r[0]) && !ws(r[|r| - 1])
  {
    var i := SkipFrom(s, ws, 0);
    s[i..SkipBack(s, ws, i, |s|)]
  }

  /** Python's `str.strip()` with no argument. */
  function Strip(s: string): string {
    Trim(s, IsPythonSpace)
  }

  /** Concatenation is associative. */
  lemma AppendAssociates<T>(a: seq<T>, b: seq<T>, c: seq<T>)
    ensures (a + b) + c == a + (b + c)
  {
  }

  /** A slice of a slice is a slice. */
  lemma SliceOfSlice(s: string, i: nat, j: nat, a: nat, b: nat)
    requires i <= j <= |s| && a <= b <= j - i
    ensures s[i..j][a..b] == s[i + a..i + b]
  {
    forall k | 0 <= k < b - a ensures s[i..j][a..b][k] == s[i + a..i + b][k] {
      assert s[i..j][a..b][k] == s[i..j][a + k] == s[i + a + k];
    }
  }

  /** `Strip` in terms of the two scans. */
  lemma StripIs(s: string)
    ensures var i := SkipFrom(s, IsPythonSpace, 0);
            Strip(s) == s[i..SkipBack(s, IsPythonSpace, i, |s|)]
  {
  }

  /** `SkipFrom` stops at the first character that is not a `ws` one. */
  lemma SkipFromIs(s: string, ws: char -> bool, i: nat, j: nat)
    requires i <= j <= |s|
    requires forall k :: i <= k < j ==> ws(s[k])
    requires j < |s| ==> !ws(s[j])
    ensures SkipFrom(s, ws, i) == j
    decreases j - i
  {
    if i < j {
      SkipFromIs(s, ws, i + 1, j);
    }
  }

  /** `SkipBack` stops after the last character that is not a `ws` one. */
  lemma SkipBackIs(s: string, ws: char -> bool, i: nat, h: nat, j: nat)
    requires i <= h <= j <= |s|
    requires forall k :: h <= k < j ==> ws(s[k])
    requires h > i ==> !ws(s[h - 1])
    ensures SkipBack(s, ws, i, j) == h
    decreases j - h
  {
    if h < j {
      SkipBackIs(s, ws, i, h, j - 1);
    }
  }

  /** A string that neither starts nor ends with a `ws` character is left
      alone by `Trim`. */
  lemma TrimUnchanged(s: string, ws: char -> bool)
    requires |s| > 0 ==> !ws(s[0]) && !ws(s[|s| - 1])
    ensures Trim(s, ws) == s
  {
    SkipFromIs(s, ws, 0, 0);
    SkipBackIs(s, ws, 0, |s|, |s|);
  }

  /** Trimming twice is trimming once. */
  lemma TrimIdempotent(s: string, ws: char -> bool)
    ensures Trim(Trim(s, ws), ws) == Trim(s, ws)
  {
    TrimUnchanged(Trim(s, ws), ws);
  }

  /** Every slice of a `ws`-only string is `ws`-only. */
  lemma AllSatisfySlice(s: string, ws: char -> bool, i: int, j: int)
    requires AllSatisfy(s, ws) && 0 <= i <= j <= |s|
    ensures AllSatisfy(s[i..j], ws)
  {
    assert forall k :: 0 <= k < j - i ==> s[i..j][k] == s[i + k];
  }

  /** Where the parts of `w1 + s + w2` sit. */
  lemma PaddedIndex(w1: string, s: string, w2: string, k: nat)
    requires k < |w1 + s + w2|
    ensures k < |w1| ==> (w1 + s + w2)[k] == w1[k]
    ensures |w1| <= k < |w1| + |s| ==> (w1 + s + w2)[k] == s[k - |w1|]
    ensures |w1| + |s| <= k ==> (w1 + s + w2)[k] == w2[k - |w1| - |s|]
  {
  }

  lemma PaddedMiddle(w1: string, s: string, w2: string, i: nat, h: nat)
    requires i <= h <= |s|
    ensures (w1 + s + w2)[|w1| + i..|w1| + h] == s[i..h]
  {
    assert (w1 + s + w2)[|w1|..|w1| + |s|] == s;
  }

  /** A `ws`-only string between `ws`-only padding trims to nothing. */
  lemma PaddedBlank(w1: string, s: string, w2: string, ws: char -> bool)
    requires AllSatisfy(w1, ws) && AllSatisfy(w2, ws)
    requires SkipFrom(s, ws, 0) == |s|
    ensures SkipFrom(w1 + s + w2, ws, 0) == |w1 + s + w2|
  {
    var t := w1 + s + w2;
    forall k | 0 <= k < |t|
      ensures ws(t[k])
    {
      PaddedIndex(w1, s, w2, k);
    }
    SkipFromIs(t, ws, 0, |t|);
  }

  /** The padding before `s` is skipped together with `s`'s own leading
      `ws` characters. */
  lemma PaddedStart(w1: string, s: string, w2: string, ws: char -> bool)
    requires AllSatisfy(w1, ws)
    requires SkipFrom(s, ws, 0) < |s|
    ensures SkipFrom(w1 + s + w2, ws, 0) == |w1| + SkipFrom(s, ws, 0)
  {
    var t := w1 + s + w2;
    var j := |w1| + SkipFrom(s, ws, 0);
    forall k | 0 <= k < j
      ensures ws(t[k])
    {
      PaddedIndex(w1, s, w2, k);
    }
    PaddedIndex(w1, s, w2, j);
    SkipFromIs(t, ws, 0, j);
  }

  /** The padding after `s` is dropped together with `s`'s own trailing
      `ws` characters. */
  lemma PaddedEnd(w1: string, s: string, w2: string, ws: char -> bool, i: nat)
    requires AllSatisfy(w2, ws) && i <= |s|
    ensures SkipBack(w1 + s + w2, ws, |w1| + i, |w1 + s + w2|) == |w1| + SkipBack(s, ws, i, |s|)
  {
    var t := w1 + s + w2;
    var h := |w1| + SkipBack(s, ws, i, |s|);
    forall k | h <= k < |t|
      ensures ws(t[k])
    {
      PaddedIndex(w1, s, w2, k);
    }
    if h > |w1| + i {
      PaddedIndex(w1, s, w2, h - 1);
    }
    SkipBackIs(t, ws, |w1| + i, h, |t|);
  }

  /** `ws` characters added around a string do not change what `Trim`
      returns, whatever the string. */
  lemma TrimAbsorbsPadding(w1: string, s: string, w2: string, ws: char -> bool)
    requires AllSatisfy(w1, ws) && AllSatisfy(w2, ws)
    ensures Trim(w1 + s + w2, ws) == Trim(s, ws)
  {
    var t := w1 + s + w2;
    var i := SkipFrom(s, ws, 0);
    if i == |s| {
      PaddedBlank(w1, s, w2, ws);
    } else {
      PaddedStart(w1, s, w2, ws);
      PaddedEnd(w1, s, w2, ws, i);
      PaddedMiddle(w1, s, w2, i, SkipBack(s, ws, i, |s|));
    }
  }

  /** Surrounding a trimmed string with `ws` characters does not change
      what `Trim` returns. */
  lemma TrimPadded(w1: string, c: string, w2: string, ws: char -> bool)
    requires AllSatisfy(w1, ws) && AllSatisfy(w2, ws)
    requires |c| > 0 ==> !ws(c[0]) && !ws(c[|c| - 1])
    ensures Trim(w1 + c + w2, ws) == c
  {
    TrimAbsorbsPadding(w1, c, w2, ws);
    TrimUnchanged(c, ws);
  }

  /** Python's `f in s` for two strings: `f` occurs in `s` as a substring
      (the empty string occurs in every string). */
  predicate IsInfix(f: string, s: string) {
    exists i :: 0 <= i <= |s| && InfixAt(f, s, i)
  }

  /** `f` occurs in `s` at index `i`. */
  predicate InfixAt(f: string, s: string, i: int) {
    0 <= i <= |s| - |f| && s[i..i + |f|] == f
  }

  // ---------------------------------------------------------------------
  // Decimal numerals

  predicate IsDigit(c: char) {
    '0' <= c <= '9'
  }

  function DigitChar(d: nat): (c: char)
    requires d < 10
    ensures IsDigit(c) && c as int - '0' as int == d
  {
    (d + '0' as int) as char
  }

  /** The decimal numeral of `n`, as JavaScript's template literals and
      Python's `str` write a non-negative integer. */
  function NatToString(n: nat): (r: string)
    ensures |r| > 0 && AllSatisfy(r, IsDigit)
    ensures r[0] == '0' ==> n == 0
  {
    if n < 10 then [DigitChar(n)]
    else NatToString(n / 10) + [DigitChar(n % 10)]
  }

  /** The value of a string of decimal digits. */
  function DigitsValue(s: string): nat
    requires AllSatisfy(s, IsDigit)
  {
    if |s| == 0 then 0
    else DigitsValue(s[..|s| - 1]) * 10 + (s[|s| - 1] as int - '0' as int)
  }

  lemma {:induction false} DigitsValueOfNatToString(n: nat)
    ensures DigitsValue(NatToString(n)) == n
  {
    if n >= 10 {
      var r := NatToString(n);
      assert r[..|r| - 1] == NatToString(n / 10);
      DigitsValueOfNatToString(n / 10);
    }
  }

  /** Distinct numbers have distinct numerals. */
  lemma NatToStringInjective(a: nat, b: nat)
    ensures NatToString(a) == NatToString(b) <==> a == b
  {
    if NatToString(a) == NatToString(b) {
      DigitsValueOfNatToString(a);
      DigitsValueOfNatToString(b);
    }
  }

  // ---------------------------------------------------------------------
  // Joining and splitting

  /** JavaScript's `Array.prototype.join` and Python's `str.join`. */
  function Join(parts: seq<string>, sep: string): string {
    if |parts| == 0 then ""
    else if |parts| == 1 then parts[0]
    else parts[0] + sep + Join(parts[1..], sep)
  }

  /** Joining two non-empty lists is joining each and putting the
      separator between. */
  lemma {:induction false} JoinAppend(a: seq<string>, b: seq<string>, sep: string)
    requires |a| > 0 && |b| > 0
    ensures Join(a + b, sep) == Join(a, sep) + sep + Join(b, sep)
  {
    if |a| == 1 {
      assert (a + b)[1..] == b;
    } else {
      assert (a + b)[1..] == a[1..] + b;
      JoinAppend(a[1..], b, sep);
    }
  }

  /** Python's `s.split(c)` for a one-character separator. */
  function Split(s: string, c: char): (r: seq<string>)
    ensures |r| > 0
  {
    if |s| == 0 then [""]
    else
      var rest := Split(s[1..], c);
      if s[0] == c then [""] + rest else [[s[0]] + rest[0]] + rest[1..]
  }

  lemma {:induction false} SplitPrefix(x: string, y: string, c: char)
    requires c !in x
    ensures Split(x + y, c) == [x + Split(y, c)[0]] + Split(y, c)[1..]
  {
    if |x| > 0 {
      assert (x + y)[1..] == x[1..] + y;
      SplitPrefix(x[1..], y, c);
      assert [x[0]] + (x[1..] + Split(y, c)[0]) == x + Split(y, c)[0];
    } else {
      assert x + y == y;
      assert x + Split(y, c)[0] == Split(y, c)[0];
      assert Split(y, c) == [Split(y, c)[0]] + Split(y, c)[1..];
    }
  }

  /** Joining parts that do not contain the separator and splitting again
      gives the parts back. */
  lemma {:induction false} SplitJoin(parts: seq<string>, c: char)
    requires |parts| > 0
    requires forall i :: 0 <= i < |parts| ==> c !in parts[i]
    ensures Split(Join(parts, [c]), c) == parts
  {
    if |parts| == 1 {
      SplitPrefix(parts[0], "", c);
      assert parts[0] + "" == parts[0];
    } else {
      var tail := Join(parts[1..], [c]);
      SplitJoin(parts[1..], c);
      assert Join(parts, [c]) == parts[0] + ([c] + tail);
      SplitPrefix(parts[0], [c] + tail, c);
      assert ([c] + tail)[1..] == tail;
      assert parts[0] + "" == parts[0];
      assert parts == [parts[0]] + parts[1..];
    }
  }
}

=== FILE: validation.dfy ===
/**
  `validate_data` (scraper.py:11-50): unwrap a fenced block, parse the text
  as JSON, and report which required fields the parsed value lacks. Only a
  decode failure is caught; a membership test on a value that is not a
  container raises TypeError, which leaves the function.
*/
module Validation {

  import opened Options
  import opened Text
  import opened Values
  import opened Fence

  /** The dict `validate_data` returns: `{"valid", "data", "errors"}`. */
  datatype Report = Report(valid: bool, data: Json, errors: seq<string>)

  const InvalidPrefix: string := "Invalid JSON: "
  const MissingPrefix: string := "Missing field: "

  /** Python's `field in parsed` for a value `json.loads` returned: a key of
      a dict, an element of a list (only a str can equal a str), a substring
      of a str. Any other value raises TypeError, modelled as `None`. */
  function Member(parsed: Json, field: string): (r: Option<bool>)
    ensures r.Some? <==> (parsed.JObject? || parsed.JArray? || parsed.JString?)
    ensures parsed.JObject? ==> r == Some(field in parsed.fields)
    ensures parsed.JArray? ==> r == Some(JString(field) in parsed.items)
    ensures parsed.JString? ==> r == Some(IsInfix(field, parsed.s))
  {
    match parsed
    case JObject(fields) => Some(field in fields)
    case JArray(items) => Some(JString(field) in items)
    case JString(s) => Some(IsInfix(field, s))
    case _ => None
  }

  /** The value supports `in`: every membership test on it returns. */
  predicate IsContainer(parsed: Json) {
    parsed.JObject? || parsed.JArray? || parsed.JString?
  }

  /** The "Missing field" messages for `required`, in order; `None` when the
      membership tests raise. */
  function MissingMessages(parsed: Json, required: seq<string>): (r: Option<seq<string>>)
    ensures r.Some? <==> |required| == 0 || IsContainer(parsed)
    ensures r.Some? ==> |r.value| <= |required|
  {
    if |required| == 0 then Some([])
    else
      match Member(parsed, required[0])
      case None => None
      case Some(present) =>
        var rest := MissingMessages(parsed, required[1..]).value;
        var head := if present then [] else [MissingPrefix + required[0]];
        Some(head + rest)
  }

  /** `validate_data(data, required_fields)`; an absent or empty
      `required_fields` is the empty sequence. */
  function Validate(data: string, required: seq<string>, loads: string -> Decoded): (r: Result<Report>)
    // A decode failure is reported, with the unwrapped text as the data.
    ensures loads(Unfence(data)).DecodeError? ==>
              r == Returned(Report(false, JString(Unfence(data)), [InvalidPrefix + loads(Unfence(data)).message]))
    // Anything else that goes wrong escapes: only a non-container, and only
    // when some field is required.
    ensures r.Raised? <==> loads(Unfence(data)).Parsed? && |required| > 0 && !IsContainer(loads(Unfence(data)).value)
    ensures r.Raised? ==> r.error == MembershipTypeError
    // A parsed value is the report's data; it is valid iff nothing is missing.
    ensures loads(Unfence(data)).Parsed? && r.Returned? ==>
              && r.value.data == loads(Unfence(data)).value
              && (r.value.valid <==> |r.value.errors| == 0)
              && |r.value.errors| <= |required|
              && r.value.errors == MissingMessages(loads(Unfence(data)).value, required).value
    ensures loads(Unfence(data)).Parsed? && |required| == 0 ==>
              r == Returned(Report(true, loads(Unfence(data)).value, []))
  {
    var text := Unfence(data);
    match loads(text)
    case DecodeError(message) =>
      Returned(Report(false, JString(text), [InvalidPrefix + message]))
    case Parsed(parsed) =>
      match MissingMessages(parsed, required)
      case None => Raised(MembershipTypeError)
      case Some(errors) => Returned(Report(|errors| == 0, parsed, errors))
  }

  /** Two messages for two fields are equal only for the same field. */
  lemma MissingMessageInjective(a: string, b: string)
    ensures MissingPrefix + a == MissingPrefix + b <==> a == b
  {
    if MissingPrefix + a == MissingPrefix + b {
      assert a == (MissingPrefix + a)[|MissingPrefix|..];
      assert b == (MissingPrefix + b)[|MissingPrefix|..];
    }
  }

  /** The messages for two lists of fields are the messages for each, one
      after the other: fields are reported in the order they are required. */
  lemma {:induction false} MissingMessagesAppend(parsed: Json, a: seq<string>, b: seq<string>)
    requires IsContainer(parsed)
    ensures MissingMessages(parsed, a + b).value == MissingMessages(parsed, a).value + MissingMessages(parsed, b).value
  {
    if |a| == 0 {
      assert a + b == b;
    } else {
      assert (a + b)[0] == a[0];
      assert (a + b)[1..] == a[1..] + b;
      MissingMessagesAppend(parsed, a[1..], b);
    }
  }

  /** Every required field the value lacks is reported, and every report
      names a required field the value lacks. */
  lemma {:induction false} MissingIffAbsent(parsed: Json, required: seq<string>, f: string)
    requires IsContainer(parsed)
    ensures MissingPrefix + f in MissingMessages(parsed, required).value <==>
              f in required && Member(parsed, f) == Some(false)
  {
    if |required| > 0 {
      MissingIffAbsent(parsed, required[1..], f);
      MissingMessageInjective(f, required[0]);
      assert required == [required[0]] + required[1..];
    }
  }

  /** One turn of the loop in `validate_data`: the messages still to come
      lose their first field, and its message, if any, joins those so far. */
  lemma MissingStep(parsed: Json, required: seq<string>, i: nat, errors: seq<string>)
    requires IsContainer(parsed) && i < |required|
    requires MissingMessages(parsed, required).value == errors + MissingMessages(parsed, required[i..]).value
    ensures var head := if Member(parsed, required[i]).value then [] else [MissingPrefix + required[i]];
            MissingMessages(parsed, required).value == (errors + head) + MissingMessages(parsed, required[i + 1..]).value
  {
    assert required[i..][0] == required[i];
    assert required[i..][1..] == required[i + 1..];
    MissingCons(parsed, required[i..]);
    var head := if Member(parsed, required[i]).value then [] else [MissingPrefix + required[i]];
    AppendAssociates(errors, head, MissingMessages(parsed, required[i + 1..]).value);
  }

  /** The messages for a non-empty list: the first field's, then the rest's. */
  lemma MissingCons(parsed: Json, required: seq<string>)
    requires IsContainer(parsed) && |required| > 0
    ensures var head := if Member(parsed, required[0]).value then [] else [MissingPrefix + required[0]];
            MissingMessages(parsed, required).value == head + MissingMessages(parsed, required[1..]).value
  {
  }

  /** `validate_data` as written: a result dict whose `errors` list grows and
      whose `valid` flag drops, field by field. It computes `Validate`. */
  method ValidateData(data: string, required: seq<string>, loads: string -> Decoded) returns (r: Result<Report>)
    ensures r == Validate(data, required, loads)
  {
    var text := Unfence(data);
    var decoded := loads(text);
    if decoded.DecodeError? {
      return Returned(Report(false, JString(text), [InvalidPrefix + decoded.message]));
    }
    var checked := CheckFields(decoded.value, required);
    if checked.None? {
      return Raised(MembershipTypeError);
    }
    return Returned(Report(checked.value.0, decoded.value, checked.value.1));
  }

  /** The end of the loop in `validate_data`: the messages so far are all
      of them. */
  lemma MissingDone(parsed: Json, required: seq<string>, errors: seq<string>)
    requires IsContainer(parsed) || |required| == 0
    requires |required| == 0 ==> errors == []
    requires IsContainer(parsed) ==>
               MissingMessages(parsed, required).value == errors + MissingMessages(parsed, required[|required|..]).value
    ensures MissingMessages(parsed, required) == Some(errors)
  {
    assert required[|required|..] == [];
    assert errors + [] == errors;
  }

  /** The loop of `validate_data` over the required fields: the `valid` flag
      and the `errors` list it leaves, or `None` when a membership test
      raises. */
  method CheckFields(parsed: Json, required: seq<string>) returns (r: Option<(bool, seq<string>)>)
    ensures r.None? <==> MissingMessages(parsed, required).None?
    ensures r.Some? ==> r.value.1 == MissingMessages(parsed, required).value
    ensures r.Some? ==> (r.value.0 <==> |r.value.1| == 0)
  {
    var valid := true;
    var errors: seq<string> := [];
    var i := 0;
    while i < |required|
      invariant 0 <= i <= |required|
      invariant IsContainer(parsed) || i == 0
      invariant i == 0 ==> errors == []
      invariant IsContainer(parsed) ==>
                  MissingMessages(parsed, required).value == errors + MissingMessages(parsed, required[i..]).value
      invariant valid <==> |errors| == 0
    {
      var present := Member(parsed, required[i]);
      if present.None? {
        return None;
      }
      MissingStep(parsed, required, i, errors);
      if !present.value {
        errors := errors + [MissingPrefix + required[i]];
        valid := false;
      }
      i := i + 1;
    }
    MissingDone(parsed, required, errors);
    return Some((valid, errors));
  }
}

=== FILE: values.dfy ===
/**
  The Python values the core handles: what `json.loads` returns, Python's
  truthiness, `dict.get`, `len`, `int(...)`, and the exceptions that leave a
  function uncaught.
*/
module Values {

  import opened Options
  import opened Text

  /** A value as `json.loads` returns it: None, bool, int, float, str, list
      or dict (dict keys are always str). Floats are their exact value. */
  datatype Json =
    | JNull
    | JBool(b: bool)
    | JInt(i: int)
    | JFloat(f: real)
    | JString(s: string)
    | JArray(items: seq<Json>)
    | JObject(fields: map<string, Json>)

  /** Python's truth value of `j` (`if j:` / `not j`). */
  predicate Truthy(j: Json) {
    match j
    case JNull => false
    case JBool(b) => b
    case JInt(i) => i != 0
    case JFloat(f) => f != 0.0
    case JString(s) => |s| > 0
    case JArray(items) => |items| > 0
    case JObject(fields) => |fields| > 0
  }

  /** `fields.get(key)`: the value under `key`, or None when it is absent. */
  function Get(fields: map<string, Json>, key: string): (r: Json)
    ensures key !in fields ==> r == JNull
    ensures key in fields ==> r == fields[key]
  {
    if key in fields then fields[key] else JNull
  }

  /** Python's `len(j)`: the size of a str, list or dict; any other value
      raises TypeError, modelled as `None`. */
  function Len(j: Json): (r: Option<nat>)
    ensures r.Some? <==> (j.JString? || j.JArray? || j.JObject?)
    ensures r.Some? ==> (r.value > 0 <==> Truthy(j))
  {
    match j
    case JString(s) => Some(|s|)
    case JArray(items) => Some(|items|)
    case JObject(fields) => Some(|fields|)
    case _ => None
  }

  /** The exceptions of the core that nothing catches. */
  datatype Escape =
    | LenTypeError          // `len(x)` on a value without a length
    | GetAttributeError     // `x.get(...)` on a value that is not a dict
    | MembershipTypeError   // `f in x` on a value that is not a container

  /** What `json.loads(text)` does with a string: it returns a value, or
      raises JSONDecodeError, whose text (`str(e)`) is `message`. The JSON
      grammar itself is not modelled: `json.loads` is a parameter of every
      component that calls it. */
  datatype Decoded = Parsed(value: Json) | DecodeError(message: string)

  /** A computation that either returns or raises an uncaught exception. */
  datatype Result<+T> = Returned(value: T) | Raised(error: Escape)

  // ---------------------------------------------------------------------
  // Python's int(...)

  /** The body of an integer literal as `int(str)` accepts it in base 10:
      digits, with single underscores allowed between two digits. */
  predicate IsUnderscoredDigits(s: string) {
    && |s| > 0
    && IsDigit(s[0])
    && IsDigit(s[|s| - 1])
    && (forall i :: 0 <= i < |s| ==> IsDigit(s[i]) || s[i] == '_')
    && (forall i :: 0 <= i < |s| - 1 ==> !(s[i] == '_' && s[i + 1] == '_'))
  }

  /** `s` with every underscore removed. */
  function DropUnderscores(s: string): (r: string)
    requires forall i :: 0 <= i < |s| ==> IsDigit(s[i]) || s[i] == '_'
    ensures AllSatisfy(r, IsDigit)
    ensures |r| <= |s|
  {
    if |s| == 0 then ""
    else if s[0] == '_' then DropUnderscores(s[1..])
    else [s[0]] + DropUnderscores(s[1..])
  }

  /** The whitespace `int(str)` skips around a literal: the ASCII space,
      tab, newline, vertical tab, form feed and carriage return, and every
      non-ASCII character `str.isspace()` accepts. Unlike `str.strip()` it
      does not skip the ASCII separators U+001C to U+001F. */
  predicate IsIntSpace(c: char) {
    IsPythonSpace(c) && !(0x1C <= c as int <= 0x1F)
  }

  /** `sys.int_max_str_digits` at its default: `int(str)` raises ValueError
      for a decimal literal with more digits than this. Underscores and the
      sign do not count; leading zeros do. */
  const MaxStrDigits: nat := 4300

  /** `int(s)` for a str: surrounding whitespace, an optional sign, then
      at most `MaxStrDigits` digits. `None` is the ValueError raised for
      anything else. */
  function IntLiteral(s: string): (r: Option<int>)
    ensures var t := Trim(s, IsIntSpace);
            r.Some? ==> |t| > 0 && IsDigit(t[|t| - 1]) && (IsDigit(t[0]) || t[0] == '+' || t[0] == '-')
    ensures var t := Trim(s, IsIntSpace); r.Some? && r.value < 0 ==> t[0] == '-'
    ensures AllSatisfy(s, IsIntSpace) ==> r.None?
  {
    var t := Trim(s, IsIntSpace);
    if |t| > 0 && (t[0] == '+' || t[0] == '-') then
      SignedValue(t[0] == '-', t[1..])
    else
      SignedValue(false, t)
  }

  function SignedValue(negative: bool, body: string): (r: Option<int>)
    ensures r.Some? <==> IsUnderscoredDigits(body) && |DropUnderscores(body)| <= MaxStrDigits
    ensures r.Some? && !negative ==> r.value >= 0
    ensures r.Some? && negative ==> r.value <= 0
  {
    if !IsUnderscoredDigits(body) then None
    else
      var digits := DropUnderscores(body);
      if |digits| > MaxStrDigits then None
      else
        var n: int := DigitsValue(digits);
        Some(if negative then -n else n)
  }

  /** Python's `int(f)` for a float: truncation toward zero. */
  function Truncate(f: real): (r: int)
    ensures f >= 0.0 ==> 0 <= r && r as real <= f < r as real + 1.0
    ensures f < 0.0 ==> r <= 0 && r as real - 1.0 < f <= r as real
  {
    if f >= 0.0 then f.Floor else -((-f).Floor)
  }

  /** Python's `int(j)`; `None` stands for the ValueError or TypeError it
      raises (None, a list, a dict, or a str that is not an integer). */
  function ToInt(j: Json): (r: Option<int>)
    ensures j.JInt? ==> r == Some(j.i)
    ensures j.JBool? ==> r == Some(if j.b then 1 else 0)
    ensures j.JNull? || j.JArray? || j.JObject? ==> r.None?
    ensures j.JFloat? ==> r.Some? && (r.value as real - 1.0 < j.f < r.value as real + 1.0)
    ensures j.JString? ==> r == IntLiteral(j.s)
  {
    match j
    case JBool(b) => Some(if b then 1 else 0)
    case JInt(i) => Some(i)
    case JFloat(f) => Some(Truncate(f))
    case JString(s) => IntLiteral(s)
    case _ => None
  }

  lemma DropUnderscoresOfDigits(s: string)
    requires AllSatisfy(s, IsDigit)
    ensures DropUnderscores(s) == s
  {
  }

  lemma DigitIsNotSpaceOrSign(c: char)
    requires IsDigit(c)
    ensures !IsIntSpace(c) && c != '+' && c != '-'
  {
  }

  lemma SignedValueOfNumeral(n: nat, negative: bool)
    requires |NatToString(n)| <= MaxStrDigits
    ensures SignedValue(negative, NatToString(n)) == Some(if negative then -(n as int) else n as int)
  {
    var digits := NatToString(n);
    DropUnderscoresOfDigits(digits);
    DigitsValueOfNatToString(n);
    assert IsUnderscoredDigits(digits);
  }

  /** `int(str(n))` gives `n` back, with or without a minus sign and
      surrounding whitespace, when `n` has at most `MaxStrDigits` digits. */
  lemma IntLiteralOfNumeral(n: nat, w1: string, w2: string, negative: bool)
    requires AllSatisfy(w1, IsIntSpace) && AllSatisfy(w2, IsIntSpace)
    requires |NatToString(n)| <= MaxStrDigits
    ensures IntLiteral(w1 + (if negative then "-" else "") + NatToString(n) + w2)
            == Some(if negative then -(n as int) else n as int)
  {
    var core := (if negative then "-" else "") + NatToString(n);
    assert w1 + (if negative then "-" else "") + NatToString(n) + w2 == w1 + core + w2;
    NumeralTrimmed(NatToString(n), negative, w1, w2);
    IntLiteralOfTrimmed(w1 + core + w2, n, negative);
  }

  /** The padding around a numeral is exactly what `int()` skips. */
  lemma NumeralTrimmed(digits: string, negative: bool, w1: string, w2: string)
    requires |digits| > 0 && AllSatisfy(digits, IsDigit)
    requires AllSatisfy(w1, IsIntSpace) && AllSatisfy(w2, IsIntSpace)
    ensures var core := (if negative then "-" else "") + digits;
            Trim(w1 + core + w2, IsIntSpace) == core
  {
    var core := (if negative then "-" else "") + digits;
    DigitIsNotSpaceOrSign(digits[0]);
    DigitIsNotSpaceOrSign(digits[|digits| - 1]);
    assert core[|core| - 1] == digits[|digits| - 1];
    assert !IsIntSpace(core[0]);
    TrimPadded(w1, core, w2, IsIntSpace);
  }

  /** A text whose unpadded part is a numeral reads as that numeral. */
  lemma IntLiteralOfTrimmed(s: string, n: nat, negative: bool)
    requires Trim(s, IsIntSpace) == (if negative then "-" else "") + NatToString(n)
    requires |NatToString(n)| <= MaxStrDigits
    ensures IntLiteral(s) == Some(if negative then -(n as int) else n as int)
  {
    var digits := NatToString(n);
    var core := Trim(s, IsIntSpace);
    DigitIsNotSpaceOrSign(digits[0]);
    SignedValueOfNumeral(n, negative);
    if negative {
      assert core[0] == '-';
      assert core[1..] == digits;
    } else {
      assert core == digits;
      assert core[0] != '+' && core[0] != '-';
    }
  }

  /** A literal with more than `MaxStrDigits` digits is refused, however
      it is padded or signed and however many of its digits are leading
      zeros: `int("1" + "0" * 4300)` raises. */
  lemma LongNumeralRejected(digits: string, w1: string, w2: string, negative: bool)
    requires AllSatisfy(digits, IsDigit) && |digits| > MaxStrDigits
    requires AllSatisfy(w1, IsIntSpace) && AllSatisfy(w2, IsIntSpace)
    ensures IntLiteral(w1 + (if negative then "-" else "") + digits + w2).None?
  {
    var core := (if negative then "-" else "") + digits;
    assert w1 + (if negative then "-" else "") + digits + w2 == w1 + core + w2;
    NumeralTrimmed(digits, negative, w1, w2);
    LongTrimmedRejected(w1 + core + w2, digits, negative);
  }

  /** A text whose unpadded part is a numeral too long for `int()`. */
  lemma LongTrimmedRejected(s: string, digits: string, negative: bool)
    requires AllSatisfy(digits, IsDigit) && |digits| > MaxStrDigits
    requires Trim(s, IsIntSpace) == (if negative then "-" else "") + digits
    ensures IntLiteral(s).None?
  {
    var core := Trim(s, IsIntSpace);
    TooManyDigits(digits, negative);
    DigitIsNotSpaceOrSign(digits[0]);
    if negative {
      assert core[0] == '-' && core[1..] == digits;
    } else {
      assert core == digits;
      assert core[0] != '+' && core[0] != '-';
    }
  }

  lemma TooManyDigits(digits: string, negative: bool)
    requires AllSatisfy(digits, IsDigit) && |digits| > MaxStrDigits
    ensures SignedValue(negative, digits).None?
  {
    DropUnderscoresOfDigits(digits);
  }

  /** A word is not an integer: `int("soon")` raises. */
  lemma WordIsNotInteger()
    ensures ToInt(JString("soon")).None?
  {
    var w := "soon";
    assert !IsIntSpace(w[0]) && !IsIntSpace(w[|w| - 1]);
    TrimUnchanged(w, IsIntSpace);
    assert !IsDigit(w[0]);
  }

  /** `int()` does not skip a file separator the way `str.strip()` does:
      `int("\x1c5")` raises, although `"\x1c5".strip()` is `"5"`. */
  lemma SeparatorIsNotIntSpace()
    ensures IntLiteral([0x1C as char] + "5").None?
    ensures Strip([0x1C as char] + "5") == "5"
  {
    var w := [0x1C as char] + "5";
    assert !IsIntSpace(w[0]) && !IsIntSpace(w[|w| - 1]);
    TrimUnchanged(w, IsIntSpace);
    assert !IsDigit(w[0]);
    assert IsPythonSpace(w[0]) && !IsPythonSpace(w[1]);
    assert SkipFrom(w, IsPythonSpace, 1) == 1;
    assert SkipFrom(w, IsPythonSpace, 0) == 1;
    assert SkipBack(w, IsPythonSpace, 1, 2) == 2;
    assert w[1..2] == "5";
  }
}
